=== FILE: README.md ===
# Figure-Mortis core, modelled in Dafny

Figure-Mortis is an Android app. It lists the famous people who died on
today's date, according to a public history API. Tapping a name asks
Google's Gemini model, with search grounding, for a short biography and its
sources. A biography can be saved; the saved screen lists saved figures
by name and birth only, and opens none of them again. This project
models the app's logic as pure functions over immutable data and proves
what that logic promises.

- `GeminiService`: the few-shot request body, reading the generated text
  out of the response envelope, stripping the markdown fence, and routing
  each failure cause to its own error.
- `MainActivity`: the requested month and day. It sorts the deaths by
  numeric year, groups them by year string in first-seen order, and
  flattens the groups into list rows. It also covers the result and
  failure callbacks, and the extras a tap passes on.
- `DetailActivity`: the three-way branch on the intent extras, the query
  text, the rendering of the birth line and the sources, and what the
  service's answer does to the screen and the save button.
- `DisplayItem`: the list row, a tag plus two nullable payload fields in
  Java and a sum type here.

Modules, one file each:

| module | file | what it holds |
|---|---|---|
| `Wrappers` | wrappers.dfy | `Option`, for Java's null |
| `JavaStrings` | java_strings.dfy | `String.replace`, `String.trim`, `contains` and null concatenation |
| `JavaIntegers` | java_integers.dfy | `Integer.parseInt` on 32-bit ints, `Integer.toString` |
| `Json` | json.dfy | Gson's JSON tree, member lookup, `getAsString`, path navigation |
| `Http` | http.dfy | the 2xx success test |
| `Extras` | extras.dfy | intent string extras and their keys |
| `GeminiRequest` | gemini_request.dfy | `buildRequestJson` and an independent reader of the request |
| `GeminiResponse` | gemini_response.dfy | `extractTextFromResponse` and the fence cleaning |
| `GeminiService` | gemini_service.dfy | `GroundedResponse`, the error causes, `handleFinalResponse`, `onResponse`/`onFailure` |
| `DisplayItems` | display_items.dfy | `Death`, `DisplayItem` and the Java object it stands for |
| `StableSort` | stable_sort.dfy | the contract of `Collections.sort`: ordered, a permutation, stable, unique |
| `MainActivity` | main_activity.dfy | date, sort/group/flatten, list callbacks, item click |
| `DetailActivity` | detail_activity.dfy | `onCreate`, query, rendering, biography callbacks |

The model leaves out two collaborators it cannot see, and passes them in
as function-typed parameters:

- `parseTree` stands for `JsonParser.parse`. It returns `None` where that
  throws.
- `fromJson` and `decodeSources` stand for Gson's data binding.

Every property is proved for all such functions.

Behaviour of the code worth noting:

- Extraction takes the text with `getAsString`. A number, a boolean or a
  one-element array at `text` therefore yields text rather than "absent".
- A non-success status is its own error cause, `HttpStatus`. Its message
  carries the code.
- Each element of `sources` is a map, and every entry of it is rendered,
  however many there are.
- There is no streaming mode. Only `generateContent` is called, so there
  is no fragment aggregation to model.
- Sorting a list of zero or one deaths never calls the comparator. So one
  death with an unparsable year is shown, not rejected. With two or more
  deaths, any unparsable year aborts the list.
- Empty generated JSON completes with null instead of failing. The detail
  screen then crashes. See Findings.
- The saved branch of the detail screen's `onCreate` is never reached in
  the app as written. The only intent that opens it (MainActivity.java:132)
  carries no `PERSON_DETAILS`. The saved list's `onItemClick` is an empty
  stub (SavedActivity.java:41-43). `DatabaseHelper.getAllFigures` never reads
  the stored sources back (DatabaseHelper.java:81-100). The model states
  what that branch does with extras that do carry a stored figure.

## Model

| member | source | states |
|---|---|---|
| GeminiRequest.ReadBuiltRequest | app/src/main/java/com/altf4/figuremortis/service/GeminiService.java:190-250 | Read back, the request holds the fixed system instruction and exactly three turns, with roles user, model, user. The last turn's only part is the user input verbatim. It also holds the single `google_search` tool with an empty object, and the fixed generation config. |
| GeminiRequest.BuildRequestInjective | app/src/main/java/com/altf4/figuremortis/service/GeminiService.java:217-230 | Different inputs give different requests. |
| GeminiRequest.FewShotDifferOnlyInLastTurn | app/src/main/java/com/altf4/figuremortis/service/GeminiService.java:217-248 | Two requests built around different live inputs have the same keys, an identical `systemInstruction`, `tools` and `generationConfig`, and the same first two turns. Each one's third and last turn is the user turn holding its own input. |
| GeminiRequest.FewShotRequest | app/src/main/java/com/altf4/figuremortis/service/GeminiService.java:243-248 | The body is an object whose top-level keys are exactly "systemInstruction", "contents", "tools" and "generationConfig", in that order, none repeated. |
| Json.AsString | app/src/main/java/com/altf4/figuremortis/service/GeminiService.java:174 | `getAsString` gives a string leaf's text, a number's literal, and "true" or "false" for a boolean. A one-element array gives its element's string. Null, objects and arrays of any other size fail. |
| Json.GetMember | app/src/main/java/com/altf4/figuremortis/service/GeminiService.java:161-174 | With distinct keys, looking up a key finds exactly the member stored under it. |
| GeminiResponse.ExtractFollowsPath | app/src/main/java/com/altf4/figuremortis/service/GeminiService.java:157-182 | Extraction is the lookup of `candidates[0].content.parts[0].text` followed by `getAsString`. A missing member, an empty array or a wrong shape at any step gives absent, never an exception. |
| GeminiResponse.ExtractEnvelope | app/src/main/java/com/altf4/figuremortis/service/GeminiService.java:157-182 | The smallest envelope that carries a text at `candidates[0].content.parts[0].text` yields exactly that text. |
| GeminiResponse.ExtractReadsOnlyFirst | app/src/main/java/com/altf4/figuremortis/service/GeminiService.java:164-175 | Only the first candidate and its first part are read. Whatever candidates follow the first change nothing. A candidate's answer is its first part's `text`, read by `getAsString`, whatever parts follow it. |
| GeminiResponse.CleanFences | app/src/main/java/com/altf4/figuremortis/service/GeminiService.java:140 | The cleaned text contains no "```", so no "```json" either. It has no leading or trailing character at or below U+0020. |
| JavaStrings.Replace | app/src/main/java/com/altf4/figuremortis/service/GeminiService.java:140 | `String.replace` with a literal target: text without the target comes back unchanged, and removing the target never makes the text longer. |
| JavaStrings.Trim | app/src/main/java/com/altf4/figuremortis/service/GeminiService.java:140 | `String.trim`: the result has no char at or below U+0020 at either end. The input is the result between a space-only prefix and a space-only suffix. |
| JavaStrings.TrimUnique | app/src/main/java/com/altf4/figuremortis/service/GeminiService.java:140 | That decomposition is unique: any cut of the text into a space-only prefix, a trimmed middle and a space-only suffix has `trim`'s result as its middle. |
| GeminiResponse.CleanIdempotent | app/src/main/java/com/altf4/figuremortis/service/GeminiService.java:140 | Cleaning an already cleaned text changes nothing. |
| GeminiResponse.CleanKeepsPlainText | app/src/main/java/com/altf4/figuremortis/service/GeminiService.java:140 | Text without backticks and without surrounding whitespace comes back unchanged. |
| GeminiResponse.CleanFencedJson | app/src/main/java/com/altf4/figuremortis/service/GeminiService.java:140 | JSON without backticks, fenced as "```json" … "```" with any whitespace or none inside the fence, is recovered exactly. This covers the exemplar answer's shape: a line break after the opening fence and none before the closing one. |
| GeminiService.StatusMessageCarriesCode | app/src/main/java/com/altf4/figuremortis/service/GeminiService.java:106-109 | The status failure's message starts with "API call failed with code: ". The status code parses back from the rest. |
| GeminiService.ErrorMessage | app/src/main/java/com/altf4/figuremortis/service/GeminiService.java:96-146 | A transport failure or a decoder failure reports the exception's own message. The status failure's message starts with "API call failed with code: " and goes on past it. The extraction failure's message is exactly "Could not extract generated text from API response.". |
| JavaIntegers.ParseInt | app/src/main/java/com/altf4/figuremortis/MainActivity.java:90 | `Integer.parseInt` succeeds exactly when the text is an optional '+' or '-' followed by one or more digits and nothing else, and the value lies inside the 32-bit int range. The result is then that value, negated for a leading '-'. |
| JavaIntegers.StrayCharRejected | app/src/main/java/com/altf4/figuremortis/MainActivity.java:90 | A text with any char other than a digit after its optional leading sign never parses, wherever that char stands; "44 BC" is one such text. |
| JavaIntegers.ParseIntToString | app/src/main/java/com/altf4/figuremortis/service/GeminiService.java:109 | Every 32-bit int's decimal text, as string concatenation writes it, parses back to that int. |
| JavaIntegers.ParseIntNeedsADigit | app/src/main/java/com/altf4/figuremortis/MainActivity.java:90 | A text without a single decimal digit never parses. |
| GeminiService.HandleFinalResponseAsWritten | app/src/main/java/com/altf4/figuremortis/service/GeminiService.java:130-150 | Absent text fails with the extraction error, and nothing is decoded. A decoded record completes with that record. Malformed text fails with the decoder's diagnostic. The handler completes with null exactly when the text cleans to nothing or decodes to null. |
| GeminiService.EmptyFenceCompletesWithNull | app/src/main/java/com/altf4/figuremortis/service/GeminiService.java:140-144 | An envelope whose text is an empty fenced block is delivered as `onComplete(null)`, whatever the decoder does. |
| GeminiService.HandleFinalResponse | app/src/main/java/com/altf4/figuremortis/service/GeminiService.java:130-150 | Absent text fails with the extraction error. A decoded record completes with that record. Text that cleans to nothing or decodes to null fails as a parse error instead of completing. Malformed text fails with its diagnostic. A completion always carries the record decoded from non-empty, fence-free text. |
| GeminiService.CorrectionOnlyRejectsNull | app/src/main/java/com/altf4/figuremortis/service/GeminiService.java:143-148 | The corrected handler differs from the written one only where the written one completes with null. That case becomes a parse failure. |
| GeminiService.GenerateGroundedResponse | app/src/main/java/com/altf4/figuremortis/service/GeminiService.java:96-121 | A transport failure is passed on as is. A non-2xx status or a missing body fails with that status code, and the body is never parsed. A 2xx response with a body delivers exactly what `handleFinalResponse` as written delivers, null completion included. Completion implies a 2xx response with a body. |
| GeminiService.GenerateGroundedResponseCorrected | app/src/main/java/com/altf4/figuremortis/service/GeminiService.java:96-121 | The same routing with the corrected handler: transport and status failures as written, and a 2xx body ends in the corrected handler's outcome. Completion implies a 2xx response with a body. |
| GeminiService.EmptyFenceReachesCallback | app/src/main/java/com/altf4/figuremortis/service/GeminiService.java:104-144 | A 2xx response whose text is an empty fenced block reaches the caller as `onComplete(null)`. The corrected service reports a parse failure for it. |
| DisplayItems.NewYearItem | app/src/main/java/com/altf4/figuremortis/DisplayItem.java:11-14 | The header constructor sets the tag and the year, and leaves the death null. |
| DisplayItems.NewDeathItem | app/src/main/java/com/altf4/figuremortis/DisplayItem.java:16-19 | The death constructor sets the tag and the death, and leaves the year null. |
| DisplayItems.ToRaw | app/src/main/java/com/altf4/figuremortis/MainActivity.java:105-111 | The activity always pairs `TYPE_HEADER` with a year and `TYPE_DEATH` with a death. The tag is `TYPE_HEADER` exactly for headers. |
| DisplayItems.RawRoundTrip | app/src/main/java/com/altf4/figuremortis/DisplayItem.java:21-31 | The getters return the constructor's payload, so each built row reads back as itself. |
| DisplayItems.FromRaw | app/src/main/java/com/altf4/figuremortis/HistoryAdapter.java:41-50 | The adapter reads a row exactly when the getter its tag selects returns non-null. A header is read exactly for `TYPE_HEADER`, and the row carries the getter's value. |
| DisplayItems.TaggedReadsBack | app/src/main/java/com/altf4/figuremortis/DisplayItem.java:4-31 | A consistently tagged object reads back as a row, and that row is built as the same object. |
| StableSort.SortCorrect | app/src/main/java/com/altf4/figuremortis/MainActivity.java:87-92 | The sort's result is ordered by key and is a permutation of the input. Elements with equal keys keep their input order. |
| StableSort.StableSortUnique | app/src/main/java/com/altf4/figuremortis/MainActivity.java:87-92 | Two sorted lists with the same per-key subsequences are equal. So every stable sort gives the same result. |
| MainActivity.RequestedDate | app/src/main/java/com/altf4/figuremortis/MainActivity.java:72-76 | The requested month is the zero-based calendar month plus one, in 1..12. The day is the day of the month. |
| MainActivity.SortByYear | app/src/main/java/com/altf4/figuremortis/MainActivity.java:86-92 | Sorting succeeds exactly when there are at most one death or every year parses. The result is then ascending by parsed year, a permutation, and keeps API order among equal years. |
| MainActivity.WordYearCrashesList | app/src/main/java/com/altf4/figuremortis/MainActivity.java:87-92 | With two or more deaths, one year without any digit makes the comparator throw, and the list screen crashes instead of showing rows. |
| MainActivity.StrayCharYearCrashesList | app/src/main/java/com/altf4/figuremortis/MainActivity.java:87-92 | With two or more deaths, one year holding a char other than a digit after its optional sign, such as "44 BC", crashes the list screen. |
| MainActivity.SortByYearIsTheStableOrder | app/src/main/java/com/altf4/figuremortis/MainActivity.java:87-92 | The sorted list is the only year-ordered arrangement that keeps each year's deaths in API order. |
| MainActivity.GroupByYear | app/src/main/java/com/altf4/figuremortis/MainActivity.java:95-102 | The grouping's key order lists each key once, and its keys are exactly the map's keys. |
| MainActivity.GroupByYearOrder | app/src/main/java/com/altf4/figuremortis/MainActivity.java:95-102 | The map's keys are the distinct raw year strings, in the order each first appears. |
| MainActivity.GroupByYearLists | app/src/main/java/com/altf4/figuremortis/MainActivity.java:95-102 | Each key holds exactly the deaths with that year string, in list order. |
| MainActivity.GroupByYearContents | app/src/main/java/com/altf4/figuremortis/MainActivity.java:95-102 | Together the lists hold every death exactly once. |
| MainActivity.FirstAppearancesOrdered | app/src/main/java/com/altf4/figuremortis/MainActivity.java:95-102 | A key that appears earlier in the list comes earlier in the map. |
| MainActivity.RowsShape | app/src/main/java/com/altf4/figuremortis/MainActivity.java:104-111 | The rows open with a header, and each header is directly followed by a death row. Each death row carries the year of the row above it. The headers are the distinct years in first-appearance order. |
| MainActivity.FlattenHeaders | app/src/main/java/com/altf4/figuremortis/MainActivity.java:104-111 | The headers of the flattened rows are the map's keys, in key order. |
| MainActivity.FlattenDeaths | app/src/main/java/com/altf4/figuremortis/MainActivity.java:104-111 | The death rows of the flattened rows are the key lists, concatenated in key order. |
| MainActivity.FlattenWellGrouped | app/src/main/java/com/altf4/figuremortis/MainActivity.java:104-111 | When every key holds a non-empty list of deaths with that year, the flattened rows open with a header. Each header is then followed by a death row, and each death row carries the year of the row above it. |
| MainActivity.RowsContents | app/src/main/java/com/altf4/figuremortis/MainActivity.java:104-111 | The death rows are a permutation of the grouped deaths. |
| MainActivity.RowsOrder | app/src/main/java/com/altf4/figuremortis/MainActivity.java:95-111 | For a sorted input, the death rows stay sorted, and each year's deaths keep their input order. |
| MainActivity.BuildRows | app/src/main/java/com/altf4/figuremortis/MainActivity.java:86-111 | Building the rows succeeds exactly when there is at most one death or every year parses. |
| MainActivity.BuildRowsCorrect | app/src/main/java/com/altf4/figuremortis/MainActivity.java:86-111 | The full list: well grouped, and every death appears exactly once. There is one header per distinct year string. The row count is the number of deaths plus the number of distinct year strings. Deaths are ascending by year, and API order holds within each year string. |
| MainActivity.OnHistoryResult | app/src/main/java/com/altf4/figuremortis/MainActivity.java:79-126 | Rows are shown exactly for a 2xx response whose body's list builds. The screen crashes exactly for a 2xx response with a body whose list is null or does not build. A non-2xx or body-less response toasts "Failed to fetch data" and builds no rows. A transport failure toasts "Error: " and its message. |
| MainActivity.OnItemClick | app/src/main/java/com/altf4/figuremortis/MainActivity.java:130-136 | The tap passes exactly two extras: the death's text as `PERSON_TEXT` and its year as `PERSON_YEAR`, both unchanged. |
| DetailActivity.BuildQuery | app/src/main/java/com/altf4/figuremortis/DetailActivity.java:73 | The query is the text, then " that was deceased in ", then the year, each at its own position. |
| DetailActivity.QueryDeterminesParts | app/src/main/java/com/altf4/figuremortis/DetailActivity.java:73 | Given the length of the text, the query determines both the text and the year. |
| DetailActivity.RenderSources | app/src/main/java/com/altf4/figuremortis/DetailActivity.java:93-101 | The sources text starts with "Sources:\n". Null sources render exactly that line. |
| DetailActivity.NestedLoopsRenderEntries | app/src/main/java/com/altf4/figuremortis/DetailActivity.java:93-101 | The nested loops render "Sources:\n" and then one `key. value` line per entry. Entries come in list order, then each map's order. |
| DetailActivity.SourcesLineCount | app/src/main/java/com/altf4/figuremortis/DetailActivity.java:93-101 | With single-line keys and values, the text has exactly one line per entry after the heading. |
| DetailActivity.BornLine | app/src/main/java/com/altf4/figuremortis/DetailActivity.java:90 | The birth line is "Born: " and the birth text. An absent birth renders as "Born: null". |
| DetailActivity.RenderBiography | app/src/main/java/com/altf4/figuremortis/DetailActivity.java:88-101 | The view shows the record's name and details, its birth line and its rendered sources. |
| DetailActivity.SavedSources | app/src/main/java/com/altf4/figuremortis/DetailActivity.java:57-65 | A null or empty stored string renders exactly "Sources:\n". Otherwise stored sources that decode render exactly as fetched sources do, and a decode failure crashes. |
| DetailActivity.OnCreate | app/src/main/java/com/altf4/figuremortis/DetailActivity.java:44-78 | Stored details in the extras select the saved branch. It sets the title and shows the stored name, "Born: " with the stored birth ("null" when absent), the details and the rendered stored sources. Save is disabled and nothing is fetched. Otherwise a text and a year send one query. Otherwise the screen only toasts "Error: No data received.". |
| DetailActivity.OnOutcome | app/src/main/java/com/altf4/figuremortis/DetailActivity.java:84-119 | Only completion enables save, storing that record with the intent's `PERSON_YEAR` extra. Failure toasts "Failed to load biography: " and the message, and leaves the views and the save button unchanged. |
| DetailActivity.OnDeliveryAsWritten | app/src/main/java/com/altf4/figuremortis/DetailActivity.java:86-91 | The written callback crashes exactly on a completion carrying null. |
| DetailActivity.EmptyFenceCrashesScreen | app/src/main/java/com/altf4/figuremortis/DetailActivity.java:86-91 | An empty fenced answer crashes the detail screen. |
| DetailActivity.CorrectedAgreesWhereNoCrash | app/src/main/java/com/altf4/figuremortis/DetailActivity.java:86-119 | Wherever the written callbacks do not crash, they leave the same screen as the corrected outcome. |
| DetailActivity.ItemClickFetches | app/src/main/java/com/altf4/figuremortis/DetailActivity.java:44-74 | A tapped death always opens the fetch branch and sends the query built from its text and year. |
| DetailActivity.TappedDeathSavesItsYear | app/src/main/java/com/altf4/figuremortis/DetailActivity.java:80-111 | After a tap, a completed fetch shows the record, and the save button stores it with the tapped death's year. |
| DetailActivity.SavedShowsAsFetched | app/src/main/java/com/altf4/figuremortis/DetailActivity.java:50-66 | Given extras that carry a stored figure whose sources decode back, the saved branch shows it exactly as the fetched record was shown. No intent in the app carries one. |

## Left out

- Network plumbing is left out: the OkHttp and Retrofit calls, the endpoint URL, the API key, timeouts and thread dispatch. The transport's answer is an input value (`Exchange`, `HistoryExchange`).
- Gson itself is left out. `gson.toJson` of the request is not modelled, and the model stops at the JSON tree. Parsing, `fromJson` and the decoding of stored sources are function parameters. The temperature 0.2 is kept as its literal text, never as a floating-point value.
- Reading the response body (`responseBody.string()`) is assumed not to fail. An I/O error there would reach `onFailure` through the catch block.
- `DatabaseHelper.addFigure` is opaque. The model records what the save button would store (`SavedFigure`) and not the SQL. The call passes a `GroundedResponse` where `DatabaseHelper` expects its own response bean; that class is not part of this model.
- UI effects are left out: progress bar and loading-image visibility, `runOnUiThread`, toast durations, and the "Figure saved" toast of the save click. The locale-formatted title date of the list screen is left out too.
- `Death`'s text and year are never null here, because the `Death` class is not part of this model. A null year would make `Integer.parseInt` throw in the same way an unparsable one does.
- A null element inside a decoded `sources` list, or a stored sources object with duplicate keys, is not modelled. The decoders are abstract and return lists of maps.
- `GroundedResponse.toString` is not modelled. It serves logging only.
- DetailActivity.SavedShowsAsFetched: the saved branch is modelled on extras that carry a stored figure. No code in the app builds such an intent or reads stored sources back, so nothing here promises that a saved figure can be opened again.
- JavaIntegers.ParseInt: accepts only ASCII digits, while `Integer.parseInt` also accepts other Unicode decimal digits. Year strings from the history API are ASCII.
- MainActivity.RequestedDate: requires the ranges `Calendar` returns (month 0..11, day 1..31) rather than modelling the calendar.
- MainActivity.OnHistoryResult: a crash is one outcome; which exception is thrown is not modelled.
- JavaStrings.Replace: the contract states only the no-occurrence and length facts. The fence removal that relies on it is characterised by `GeminiResponse.CleanFences` and its lemmas, which unfold the definition.

## Findings

| source | as written | input that shows it | evidently intended | confidence | as-written member | corrected member |
|---|---|---|---|---|---|---|
| app/src/main/java/com/altf4/figuremortis/service/GeminiService.java:140-144 | The cleaned text goes to `gson.fromJson`, which returns null for an empty string. The null is passed to `onComplete`, and `DetailActivity` then dereferences `response.name` and crashes. | A 200 response whose text is "```json\n\n```". | An answer with no JSON object fails with a parse error through `onFailure`, like any other unparsable answer. | not executed | GeminiService.HandleFinalResponseAsWritten | GeminiService.HandleFinalResponse |

=== FILE: detail_activity.dfy ===
/**
 * `DetailActivity`: which of its three branches `onCreate` takes from the
 * intent extras, the query it sends, how a biography and its sources are
 * rendered, and what the service's answer does to the screen.
 */
module DetailActivity {
  import opened Wrappers
  import opened JavaStrings
  import opened Extras
  import opened DisplayItems
  import opened GeminiService
  import MainActivity

  const DECEASED_IN: string := " that was deceased in "
  const SAVED_TITLE: string := "Ah... you just selected..."
  const BORN_PREFIX: string := "Born: "
  const SOURCES_HEADER: string := "Sources:\n"
  const NO_DATA_MESSAGE: string := "Error: No data received."
  const LOAD_FAILED_PREFIX: string := "Failed to load biography: "

  /** The question sent to the service: the death's text, then the year it happened. */
  function BuildQuery(text: string, year: string): (q: string)
    ensures |q| == |text| + |DECEASED_IN| + |year|
    ensures q[..|text|] == text && q[|text| + |DECEASED_IN|..] == year
    ensures q[|text|..|text| + |DECEASED_IN|] == DECEASED_IN
  {
    text + DECEASED_IN + year
  }

  /** A query splits back into its text and year once the length of the text is known. */
  lemma QueryDeterminesParts(t1: string, y1: string, t2: string, y2: string)
    requires BuildQuery(t1, y1) == BuildQuery(t2, y2) && |t1| == |t2|
    ensures t1 == t2 && y1 == y2
  {
    assert BuildQuery(t1, y1)[..|t1|] == t1;
    assert BuildQuery(t2, y2)[..|t2|] == t2;
  }

  // ---------------------------------------------------------------- sources

  /** `key + ". " + value + "\n"`, where a null value is appended as "null". */
  function EntryLine(key: string, value: Option<string>): string {
    key + ". " + Show(value) + "\n"
  }

  /** The outer loop: each map's lines (the inner loop, `Lines`), in list order. */
  function ListLines(sources: seq<SourceMap>): string {
    if sources == [] then [] else Lines(sources[0]) + ListLines(sources[1..])
  }

  /** The text of `tvSources`; null sources render only the heading. */
  function RenderSources(sources: Option<seq<SourceMap>>): (r: string)
    ensures StartsWith(r, SOURCES_HEADER)
    ensures sources.None? || sources == Some([]) ==> r == SOURCES_HEADER
  {
    match sources
    case None => SOURCES_HEADER
    case Some(list) => SOURCES_HEADER + ListLines(list)
  }

  /** Every entry of every map, in list order and then map order. */
  function Entries(sources: seq<SourceMap>): (r: seq<(string, Option<string>)>)
    ensures sources == [] ==> r == []
  {
    if sources == [] then [] else sources[0] + Entries(sources[1..])
  }

  /** One line per entry, in order: the inner loop over one map, or one loop over a flat list. */
  function Lines(entries: seq<(string, Option<string>)>): string {
    if entries == [] then [] else EntryLine(entries[0].0, entries[0].1) + Lines(entries[1..])
  }

  lemma {:induction false} LinesAppend(a: seq<(string, Option<string>)>, b: seq<(string, Option<string>)>)
    ensures Lines(a + b) == Lines(a) + Lines(b)
  {
    if a == [] {
      assert a + b == b;
    } else {
      assert (a + b)[1..] == a[1..] + b;
      LinesAppend(a[1..], b);
    }
  }

  /**
   * The two nested loops render the same text as one loop over the
   * flattened entries: list order first, then each map's own order.
   */
  lemma {:induction false} NestedLoopsRenderEntries(sources: seq<SourceMap>)
    ensures RenderSources(Some(sources)) == SOURCES_HEADER + Lines(Entries(sources))
    ensures ListLines(sources) == Lines(Entries(sources))
  {
    if sources != [] {
      NestedLoopsRenderEntries(sources[1..]);
      LinesAppend(sources[0], Entries(sources[1..]));
    }
  }

  /** How often `c` occurs in `s`. */
  function Occurrences(s: string, c: char): nat {
    if s == [] then 0 else (if s[0] == c then 1 else 0) + Occurrences(s[1..], c)
  }

  lemma {:induction false} OccurrencesAppend(a: string, b: string, c: char)
    ensures Occurrences(a + b, c) == Occurrences(a, c) + Occurrences(b, c)
  {
    if a == [] {
      assert a + b == b;
    } else {
      assert (a + b)[1..] == a[1..] + b;
      OccurrencesAppend(a[1..], b, c);
    }
  }

  lemma {:induction false} NoOccurrences(s: string, c: char)
    requires c !in s
    ensures Occurrences(s, c) == 0
  {
    if s != [] {
      NoOccurrences(s[1..], c);
    }
  }

  /** Neither key nor value of any entry holds a line break. */
  predicate SingleLineEntries(entries: seq<(string, Option<string>)>) {
    forall i :: 0 <= i < |entries| ==> '\n' !in entries[i].0 && '\n' !in Show(entries[i].1)
  }

  /** With single-line keys and values, the text has the heading's line and then exactly one line per entry. */
  lemma {:induction false} OneLinePerEntry(entries: seq<(string, Option<string>)>)
    requires SingleLineEntries(entries)
    ensures Occurrences(Lines(entries), '\n') == |entries|
  {
    if entries != [] {
      var (k, v) := entries[0];
      OneLinePerEntry(entries[1..]);
      OccurrencesAppend(EntryLine(k, v), Lines(entries[1..]), '\n');
      OccurrencesAppend(k + ". " + Show(v), "\n", '\n');
      OccurrencesAppend(k + ". ", Show(v), '\n');
      OccurrencesAppend(k, ". ", '\n');
      NoOccurrences(k, '\n');
      NoOccurrences(Show(v), '\n');
    }
  }

  lemma SourcesLineCount(sources: seq<SourceMap>)
    requires SingleLineEntries(Entries(sources))
    ensures Occurrences(RenderSources(Some(sources)), '\n') == 1 + |Entries(sources)|
  {
    NestedLoopsRenderEntries(sources);
    OneLinePerEntry(Entries(sources));
    OccurrencesAppend(SOURCES_HEADER, Lines(Entries(sources)), '\n');
  }

  // ----------------------------------------------------------------- screen

  /** The four text views: name, "Born: " line, details and sources. */
  datatype Biography = Biography(name: Option<string>, born: string, details: Option<string>, sources: string)

  /** A record stored through `addFigure`, tagged with the year it was opened for. */
  datatype SavedFigure = SavedFigure(record: GroundedResponse, deathYear: Option<string>)

  /** The save button: as laid out, disabled, or enabled to store one figure. */
  datatype SaveButton = SaveAsLaidOut | SaveDisabled | SaveEnabled(figure: SavedFigure)

  datatype DetailScreen = DetailScreen(title: Option<string>, view: Option<Biography>, save: SaveButton, toast: Option<string>)

  const BLANK_SCREEN: DetailScreen := DetailScreen(None, None, SaveAsLaidOut, None)

  /** "Born: " followed by the birth text, or by "null" when there is none. */
  function BornLine(birth: Option<string>): (r: string)
    ensures StartsWith(r, BORN_PREFIX)
    ensures birth.None? ==> r == "Born: null"
    ensures birth.Some? ==> r[|BORN_PREFIX|..] == birth.value
  {
    BORN_PREFIX + Show(birth)
  }

  /** What `onComplete` writes into the views. */
  function RenderBiography(g: GroundedResponse): (b: Biography)
    ensures b.name == g.name && b.details == g.details
    ensures b.born == BornLine(g.birth)
    ensures b.sources == RenderSources(g.sources)
  {
    Biography(g.name, BornLine(g.birth), g.details, RenderSources(g.sources))
  }

  /** `onCreate`'s result: the screen and the query sent to the service, or a crash. */
  datatype Created = Created(screen: DetailScreen, request: Option<string>) | CreateCrashed

  /**
   * The sources text of the saved branch: a missing or empty stored string
   * renders the heading alone; otherwise the stored JSON is decoded
   * (`None` when Gson throws or yields null, which crashes the loop).
   */
  function SavedSources(stored: Option<string>, decodeSources: string -> Option<seq<SourceMap>>): (r: Option<string>)
    ensures stored.None? || stored == Some([]) ==> r == Some(SOURCES_HEADER)
    ensures stored.Some? && stored.value != [] ==>
      && (decodeSources(stored.value).Some? ==> r == Some(RenderSources(decodeSources(stored.value))))
      && (decodeSources(stored.value).None? ==> r.None?)
    ensures r.Some? ==> StartsWith(r.value, SOURCES_HEADER)
  {
    if stored.None? || stored.value == [] then Some(SOURCES_HEADER)
    else
      match decodeSources(stored.value)
      case Some(list) => Some(RenderSources(Some(list)))
      case None => None
  }

  /**
   * `onCreate`. Stored details select the saved branch: the title is set,
   * the stored name, "Born: " line, details and sources text are shown,
   * save is disabled and nothing is fetched.
   * Otherwise a text and a year send one query. Otherwise the screen only
   * toasts that no data arrived.
   */
  function OnCreate(extras: Extras, decodeSources: string -> Option<seq<SourceMap>>): (r: Created)
    ensures PERSON_DETAILS in extras ==>
      && (r.Created? <==> SavedSources(GetStringExtra(extras, PERSON_SOURCES), decodeSources).Some?)
      && (r.Created? ==> r.request.None? && r.screen.save == SaveDisabled && r.screen.title == Some(SAVED_TITLE))
      && (r.Created? ==> r.screen.toast.None? && r.screen.view == Some(Biography(
            GetStringExtra(extras, PERSON_TEXT),
            BORN_PREFIX + Show(GetStringExtra(extras, PERSON_BIRTH)),
            Some(extras[PERSON_DETAILS]),
            SavedSources(GetStringExtra(extras, PERSON_SOURCES), decodeSources).value)))
    ensures PERSON_DETAILS !in extras && PERSON_TEXT in extras && PERSON_YEAR in extras ==>
      r == Created(BLANK_SCREEN, Some(BuildQuery(extras[PERSON_TEXT], extras[PERSON_YEAR])))
    ensures PERSON_DETAILS !in extras && (PERSON_TEXT !in extras || PERSON_YEAR !in extras) ==>
      r == Created(BLANK_SCREEN.(toast := Some(NO_DATA_MESSAGE)), None)
  {
    var text := GetStringExtra(extras, PERSON_TEXT);
    var year := GetStringExtra(extras, PERSON_YEAR);
    var details := GetStringExtra(extras, PERSON_DETAILS);
    if details.Some? then
      match SavedSources(GetStringExtra(extras, PERSON_SOURCES), decodeSources)
      case None => CreateCrashed
      case Some(sources) =>
        var view := Biography(text, BornLine(GetStringExtra(extras, PERSON_BIRTH)), details, sources);
        Created(DetailScreen(Some(SAVED_TITLE), Some(view), SaveDisabled, None), None)
    else if text.Some? && year.Some? then
      Created(BLANK_SCREEN, Some(BuildQuery(text.value, year.value)))
    else
      Created(BLANK_SCREEN.(toast := Some(NO_DATA_MESSAGE)), None)
  }

  /**
   * The service's answer. Completion shows the biography and enables save
   * for that record tagged with the intent's `PERSON_YEAR` extra, which the
   * click handler reads; failure toasts the message
   * and leaves the views and the save button as they were.
   */
  function OnOutcome(screen: DetailScreen, outcome: Outcome, extras: Extras): (r: DetailScreen)
    ensures r.title == screen.title
    ensures r.save.SaveEnabled? <==> outcome.Completed? || screen.save.SaveEnabled?
    ensures outcome.Completed? ==>
      r.view == Some(RenderBiography(outcome.response)) && r.save == SaveEnabled(SavedFigure(outcome.response, GetStringExtra(extras, PERSON_YEAR)))
    ensures outcome.Failed? ==>
      r.view == screen.view && r.save == screen.save
      && r.toast == Some(LOAD_FAILED_PREFIX + Show(ErrorMessage(outcome.error)))
  {
    match outcome
    case Completed(g) => screen.(view := Some(RenderBiography(g)), save := SaveEnabled(SavedFigure(g, GetStringExtra(extras, PERSON_YEAR))))
    case Failed(e) => screen.(toast := Some(LOAD_FAILED_PREFIX + Show(ErrorMessage(e))))
  }

  /**
   * The callbacks as written: a completion carrying null throws on
   * `response.name` (`None`), every other delivery updates the screen.
   */
  function OnDeliveryAsWritten(screen: DetailScreen, delivery: Delivery, extras: Extras): (r: Option<DetailScreen>)
    ensures r.None? <==> delivery == OnComplete(None)
  {
    match delivery
    case OnComplete(Some(g)) => Some(OnOutcome(screen, Completed(g), extras))
    case OnComplete(None) => None
    case OnFailure(e) => Some(OnOutcome(screen, Failed(e), extras))
  }

  /** The as-written callbacks crash on an empty fenced answer. */
  lemma EmptyFenceCrashesScreen(screen: DetailScreen, body: string, parseTree: string -> Option<Json.Json>, fromJson: string -> Decoded, extras: Extras)
    requires parseTree(body) == Some(GeminiResponse.Envelope(GeminiResponse.JSON_FENCE + "\n" + "" + "\n" + GeminiResponse.FENCE))
    ensures OnDeliveryAsWritten(screen, HandleFinalResponseAsWritten(body, parseTree, fromJson), extras).None?
  {
    EmptyFenceCompletesWithNull(body, parseTree, fromJson);
  }

  /** Where the as-written callbacks do not crash, they agree with the corrected outcome. */
  lemma CorrectedAgreesWhereNoCrash(screen: DetailScreen, body: string, parseTree: string -> Option<Json.Json>, fromJson: string -> Decoded, extras: Extras)
    ensures var w := OnDeliveryAsWritten(screen, HandleFinalResponseAsWritten(body, parseTree, fromJson), extras);
      w.Some? ==> w.value == OnOutcome(screen, HandleFinalResponse(body, parseTree, fromJson), extras)
  {
    CorrectionOnlyRejectsNull(body, parseTree, fromJson);
  }

  /** Tapping a death in the list always takes the fetch branch, asking about exactly that death. */
  lemma ItemClickFetches(d: Death, decodeSources: string -> Option<seq<SourceMap>>)
    ensures OnCreate(MainActivity.OnItemClick(d), decodeSources) == Created(BLANK_SCREEN, Some(BuildQuery(d.text, d.year)))
  {
    var extras := MainActivity.OnItemClick(d);
    assert PERSON_DETAILS !in extras;
  }

  /**
   * The fetch flow from a tap: the detail screen opens blank and sends that
   * death's query; when the service completes with a record, the screen
   * shows it and the save button stores it with the tapped death's year.
   */
  lemma TappedDeathSavesItsYear(d: Death, decodeSources: string -> Option<seq<SourceMap>>, exchange: Exchange,
                                parseTree: string -> Option<Json.Json>, fromJson: string -> Decoded, g: GroundedResponse)
    requires GenerateGroundedResponse(exchange, parseTree, fromJson) == OnComplete(Some(g))
    ensures var extras := MainActivity.OnItemClick(d);
      var created := OnCreate(extras, decodeSources);
      && created.Created? && created.request == Some(BuildQuery(d.text, d.year))
      && OnDeliveryAsWritten(created.screen, GenerateGroundedResponse(exchange, parseTree, fromJson), extras)
         == Some(created.screen.(view := Some(RenderBiography(g)), save := SaveEnabled(SavedFigure(g, Some(d.year)))))
  {
    ItemClickFetches(d, decodeSources);
  }

  /**
   * A stored figure is shown exactly as the fetched record with the same
   * name, birth, details and sources was, provided the stored sources text
   * decodes back to those sources.
   */
  lemma SavedShowsAsFetched(g: GroundedResponse, extras: Extras, decodeSources: string -> Option<seq<SourceMap>>)
    requires g.details.Some? && g.sources.Some?
    requires GetStringExtra(extras, PERSON_TEXT) == g.name
    requires GetStringExtra(extras, PERSON_BIRTH) == g.birth
    requires GetStringExtra(extras, PERSON_DETAILS) == g.details
    requires PERSON_SOURCES in extras && extras[PERSON_SOURCES] != []
    requires decodeSources(extras[PERSON_SOURCES]) == g.sources
    ensures OnCreate(extras, decodeSources).Created?
    ensures OnCreate(extras, decodeSources).screen.view == Some(RenderBiography(g))
  {
  }
}

=== FILE: display_items.dfy ===
/**
 * `DisplayItem`, the row type of the deaths list: a year header or one
 * death. The Java class stores an int tag next to two nullable payload
 * fields; here the row is a sum type, and `RawItem` is the Java object.
 */
module DisplayItems {
  import opened Wrappers

  /** One entry of the history API's `deaths` list. */
  datatype Death = Death(text: string, year: string)

  const TYPE_HEADER: int := 0
  const TYPE_DEATH: int := 1

  datatype DisplayItem = Header(year: string) | DeathRow(death: Death)

  /** The Java object: `type`, `year` and `death` fields, null where a constructor left them. */
  datatype RawItem = RawItem(kind: int, year: Option<string>, death: Option<Death>)

  /** `new DisplayItem(type, year)`: sets the tag and the year, leaves `death` null. */
  function NewYearItem(kind: int, year: string): (r: RawItem)
    ensures r.kind == kind && r.year == Some(year) && r.death.None?
  {
    RawItem(kind, Some(year), None)
  }

  /** `new DisplayItem(type, death)`: sets the tag and the death, leaves `year` null. */
  function NewDeathItem(kind: int, death: Death): (r: RawItem)
    ensures r.kind == kind && r.death == Some(death) && r.year.None?
  {
    RawItem(kind, None, Some(death))
  }

  /** The tag agrees with the payload that is present. */
  predicate Tagged(r: RawItem) {
    || (r.kind == TYPE_HEADER && r.year.Some? && r.death.None?)
    || (r.kind == TYPE_DEATH && r.death.Some? && r.year.None?)
  }

  /** How `MainActivity` builds each row: a header always with TYPE_HEADER, a death with TYPE_DEATH. */
  function ToRaw(item: DisplayItem): (r: RawItem)
    ensures Tagged(r)
    ensures r.kind == TYPE_HEADER <==> item.Header?
  {
    match item
    case Header(y) => NewYearItem(TYPE_HEADER, y)
    case DeathRow(d) => NewDeathItem(TYPE_DEATH, d)
  }

  /**
   * How `HistoryAdapter` reads a row back through the getters: TYPE_HEADER
   * shows `getYear()`, any other tag shows `getDeath()`; `None` where the
   * getter it relies on returns null.
   */
  function FromRaw(r: RawItem): (item: Option<DisplayItem>)
    ensures item.Some? <==> if r.kind == TYPE_HEADER then r.year.Some? else r.death.Some?
    ensures item.Some? ==> (item.value.Header? <==> r.kind == TYPE_HEADER)
    ensures item.Some? && item.value.Header? ==> r.year == Some(item.value.year)
    ensures item.Some? && item.value.DeathRow? ==> r.death == Some(item.value.death)
  {
    if r.kind == TYPE_HEADER then
      (match r.year case Some(y) => Some(Header(y)) case None => None)
    else
      (match r.death case Some(d) => Some(DeathRow(d)) case None => None)
  }

  /**
   * The getters return exactly the constructor payload, so every row the
   * activity builds is read back by the adapter as the same row.
   */
  lemma RawRoundTrip(item: DisplayItem)
    ensures FromRaw(ToRaw(item)) == Some(item)
  {
  }

  /** Only a consistently tagged object reads back as a row, and then as the one it encodes. */
  lemma TaggedReadsBack(r: RawItem)
    requires Tagged(r)
    ensures FromRaw(r).Some? && ToRaw(FromRaw(r).value) == r
  {
  }
}

=== FILE: extras.dfy ===
/** The string extras an `Intent` carries between the two screens. */
module Extras {
  import opened Wrappers

  /** Keys present with a non-null value; `getStringExtra` of any other key is null. */
  type Extras = map<string, string>

  const PERSON_TEXT: string := "PERSON_TEXT"
  const PERSON_YEAR: string := "PERSON_YEAR"
  const PERSON_BIRTH: string := "PERSON_BIRTH"
  const PERSON_DETAILS: string := "PERSON_DETAILS"
  const PERSON_SOURCES: string := "PERSON_SOURCES"

  function GetStringExtra(extras: Extras, key: string): Option<string> {
    if key in extras then Some(extras[key]) else None
  }
}

=== FILE: gemini_request.dfy ===
/**
 * `buildRequestJson`: the request body sent to the generateContent
 * endpoint, a fixed few-shot conversation around one live user turn.
 */
module GeminiRequest {
  import opened Wrappers
  import opened Json

  /** The system instruction describing the required JSON answer. */
  const SYSTEM_INSTRUCTION: string :=
    "You are an expert historian who is capable of finding details about a historical figure from their name and the date of their death. You must use grounding search tool to verify the information. Always return the response with this JSON format:\n\n{\n\"name\" : \"Full name of the historical figure\",\n\"birth\" : \"Birth date if there's any information\",\n\"details\": \"Detailed 3-paragraph biography about the person (clean format with source annotation)\",\n\"sources\": [{\"source number\": \"Links of the information sources\"}]\n}"

  /** The exemplar user turn. */
  const EXAMPLE_QUESTION: string :=
    "Who was John III, pope of the Catholic Church that was deceased in 574"

  /** The exemplar model turn, a fenced JSON answer. */
  const EXAMPLE_ANSWER: string :=
    "```json\n{\n\"name\": \"John III\",\n\"birth\": \"Around 530 AD [3]\",\n\"details\": \"John III, born Catelinus in Rome, was the Pope of the Catholic Church from July 17, 561, to his death on July 13, 574 [1, 3, 5]. Born to a distinguished family, his father, Anastasius, held the title of illustris [1, 3]. His papacy occurred during the Lombard invasion of Italy, a period of significant upheaval, resulting in the destruction of many records from his reign [1, 2, 3].\\n\\nDespite the challenges of his time, John III is remembered as a magnanimous pontiff who was dedicated to the welfare of the people [1]. In one notable act, he intervened on behalf of two bishops, Salonius of Embrun and Sagittarius of Gap, who had been condemned at a synod in Lyons. King Guntram of Burgundy believed they were unjustly condemned and appealed to John, who decided they should be restored to their sees [1, 5].\\n\\nDuring the Lombard invasion, John III sought assistance from Narses, the governor of Naples, to defend Rome [2, 3]. He even retreated to the catacombs of Praetextatus for several months, where he continued to perform ordinations [1]. After Narses' death, he returned to the Lateran Palace and, with a newfound appreciation for the catacombs, ordered their repair and ensured they received the necessities for Mass [1]. He was buried in St. Peter's [1].\",\n\"sources\": [\n  {\n    \"1\": \"[https://example.com/source1](https://example.com/source1)\"\n  },\n  {\n    \"2\": \"[https://example.com/source2](https://example.com/source2)\"\n  },\n  {\n    \"3\": \"[https://example.com/source3](https://example.com/source3)\"\n  },\n  {\n    \"4\": \"[https://example.com/source4](https://example.com/source4)\"\n  },\n  {\n    \"5\": \"[https://example.com/source5](https://example.com/source5)\"\n  }\n]\n}```"

  const TEMPERATURE: Json := JNumber("0.2")

  /** The one tool: `google_search` with an empty object, which enables search grounding. */
  const SEARCH_TOOL: Json := JObject([("google_search", JObject([]))])

  const GENERATION_CONFIG: Json := JObject([("temperature", TEMPERATURE)])

  /** `{"text": text}` */
  function TextPart(text: string): Json {
    JObject([("text", JString(text))])
  }

  /** `{"role": role, "parts": [{"text": text}]}` */
  function Turn(role: string, text: string): Json {
    JObject([("role", JString(role)), ("parts", JArray([TextPart(text)]))])
  }

  /**
   * The request tree for a given system instruction, exemplar pair and live
   * input; the application always passes its three fixed texts.
   */
  function FewShotRequest(system: string, question: string, answer: string, userInput: string): (r: Json)
    ensures r.JObject? && DistinctKeys(r.members)
    ensures Keys(r.members) == ["systemInstruction", "contents", "tools", "generationConfig"]
  {
    JObject([
      ("systemInstruction", JObject([("parts", JArray([TextPart(system)]))])),
      ("contents", JArray([
        Turn("user", question),
        Turn("model", answer),
        Turn("user", userInput)])),
      ("tools", JArray([SEARCH_TOOL])),
      ("generationConfig", GENERATION_CONFIG)])
  }

  /** `buildRequestJson(userInput)` before serialization. */
  function BuildRequest(userInput: string): Json {
    FewShotRequest(SYSTEM_INSTRUCTION, EXAMPLE_QUESTION, EXAMPLE_ANSWER, userInput)
  }

  /** A conversation turn as the endpoint reads it: a role and the texts of its parts. */
  datatype Message = Message(role: string, texts: seq<string>)

  /** What a request says, read back from its JSON tree. */
  datatype Prompt = Prompt(system: seq<string>, turns: seq<Message>, tools: seq<Json>, config: Json)

  /** The `text` of one part, which must be an object holding a string there. */
  function PartText(part: Json): Option<string> {
    if !part.JObject? then None
    else
      match Get(part.members, "text")
      case Some(JString(t)) => Some(t)
      case _ => None
  }

  /** The texts of a `parts` array, in order. */
  function ReadTexts(parts: seq<Json>): (r: Option<seq<string>>)
    ensures r.Some? ==> |r.value| == |parts|
  {
    if parts == [] then Some([])
    else
      match (PartText(parts[0]), ReadTexts(parts[1..]))
      case (Some(t), Some(rest)) => Some([t] + rest)
      case _ => None
  }

  /** The array under `key`, when there is one. */
  function ArrayAt(members: seq<(string, Json)>, key: string): Option<seq<Json>> {
    match Get(members, key)
    case Some(JArray(elems)) => Some(elems)
    case _ => None
  }

  /** One `contents` entry: a string `role` and a `parts` array of texts. */
  function ReadTurn(turn: Json): Option<Message> {
    if !turn.JObject? then None
    else
      match (Get(turn.members, "role"), ArrayAt(turn.members, "parts"))
      case (Some(JString(role)), Some(parts)) =>
        (match ReadTexts(parts)
         case Some(texts) => Some(Message(role, texts))
         case None => None)
      case _ => None
  }

  function ReadTurns(contents: seq<Json>): (r: Option<seq<Message>>)
    ensures r.Some? ==> |r.value| == |contents|
  {
    if contents == [] then Some([])
    else
      match (ReadTurn(contents[0]), ReadTurns(contents[1..]))
      case (Some(t), Some(rest)) => Some([t] + rest)
      case _ => None
  }

  /** The texts of `systemInstruction.parts`. */
  function ReadSystem(members: seq<(string, Json)>): Option<seq<string>> {
    match Get(members, "systemInstruction")
    case Some(JObject(si)) =>
      (match ArrayAt(si, "parts")
       case Some(parts) => ReadTexts(parts)
       case None => None)
    case _ => None
  }

  /** Reads a request body back into its conversation; an independent reader of the wire shape. */
  function ReadRequest(j: Json): Option<Prompt> {
    if !j.JObject? then None
    else
      var system := ReadSystem(j.members);
      var contents := ArrayAt(j.members, "contents");
      var turns := if contents.Some? then ReadTurns(contents.value) else None;
      var tools := ArrayAt(j.members, "tools");
      var config := Get(j.members, "generationConfig");
      if system.Some? && turns.Some? && tools.Some? && config.Some?
      then Some(Prompt(system.value, turns.value, tools.value, config.value))
      else None
  }

  /** The few-shot conversation around `userInput`. */
  function Conversation(question: string, answer: string, userInput: string): seq<Message> {
    [Message("user", [question]), Message("model", [answer]), Message("user", [userInput])]
  }

  lemma ReadTurnsCons(role: string, text: string, rest: seq<Json>, restTurns: seq<Message>)
    requires ReadTurns(rest) == Some(restTurns)
    ensures ReadTurns([Turn(role, text)] + rest) == Some([Message(role, [text])] + restTurns)
  {
    var contents := [Turn(role, text)] + rest;
    assert contents[1..] == rest;
    var m := contents[0].members;
    assert Get(m, "role") == Some(JString(role));
    assert m[1..][0] == ("parts", JArray([TextPart(text)]));
    assert Get(m, "parts") == Some(JArray([TextPart(text)]));
    assert ArrayAt(m, "parts") == Some([TextPart(text)]);
    ReadSingleText(text);
    assert ReadTurn(contents[0]) == Some(Message(role, [text]));
  }

  lemma ReadSingleText(text: string)
    ensures ReadTexts([TextPart(text)]) == Some([text])
  {
    assert PartText(TextPart(text)) == Some(text);
    assert [TextPart(text)][1..] == [];
    assert [text] + [] == [text];
  }

  lemma ReadConversation(question: string, answer: string, userInput: string)
    ensures ReadTurns([Turn("user", question), Turn("model", answer), Turn("user", userInput)])
         == Some(Conversation(question, answer, userInput))
  {
    var t1, t2, t3 := Turn("user", question), Turn("model", answer), Turn("user", userInput);
    var m1, m2, m3 := Message("user", [question]), Message("model", [answer]), Message("user", [userInput]);
    ReadTurnsCons("user", userInput, [], []);
    assert [t3] + [] == [t3] && [m3] + [] == [m3];
    ReadTurnsCons("model", answer, [t3], [m3]);
    assert [t2] + [t3] == [t2, t3] && [m2] + [m3] == [m2, m3];
    ReadTurnsCons("user", question, [t2, t3], [m2, m3]);
    assert [t1] + [t2, t3] == [t1, t2, t3] && [m1] + [m2, m3] == [m1, m2, m3];
  }

  /** The system instruction of the request reads back as its one text. */
  lemma FewShotSystem(system: string, question: string, answer: string, userInput: string)
    ensures ReadSystem(FewShotRequest(system, question, answer, userInput).members) == Some([system])
  {
    var m := FewShotRequest(system, question, answer, userInput).members;
    GetMember(m, "systemInstruction", m[0].1);
    ReadSingleText(system);
    assert ArrayAt(m[0].1.members, "parts") == Some([TextPart(system)]);
  }

  /** The other three members of the request, each found under its key. */
  lemma FewShotMembers(system: string, question: string, answer: string, userInput: string)
    ensures var m := FewShotRequest(system, question, answer, userInput).members;
      && ArrayAt(m, "contents") == Some([Turn("user", question), Turn("model", answer), Turn("user", userInput)])
      && ArrayAt(m, "tools") == Some([SEARCH_TOOL])
      && Get(m, "generationConfig") == Some(GENERATION_CONFIG)
  {
    var m := FewShotRequest(system, question, answer, userInput).members;
    GetMember(m, "contents", m[1].1);
    GetMember(m, "tools", m[2].1);
    GetMember(m, "generationConfig", m[3].1);
  }

  lemma ReadFewShotRequest(system: string, question: string, answer: string, userInput: string)
    ensures ReadRequest(FewShotRequest(system, question, answer, userInput))
         == Some(Prompt([system], Conversation(question, answer, userInput), [SEARCH_TOOL], GENERATION_CONFIG))
  {
    FewShotSystem(system, question, answer, userInput);
    FewShotMembers(system, question, answer, userInput);
    ReadConversation(question, answer, userInput);
  }

  /**
   * The built request reads back as: the fixed system instruction, exactly
   * three turns with roles user, model, user whose last holds `userInput`
   * verbatim as its only part, the single search tool and the fixed
   * generation config. Nothing but the last turn depends on the input.
   */
  lemma ReadBuiltRequest(userInput: string)
    ensures ReadRequest(BuildRequest(userInput))
         == Some(Prompt([SYSTEM_INSTRUCTION], Conversation(EXAMPLE_QUESTION, EXAMPLE_ANSWER, userInput), [SEARCH_TOOL], GENERATION_CONFIG))
  {
    ReadFewShotRequest(SYSTEM_INSTRUCTION, EXAMPLE_QUESTION, EXAMPLE_ANSWER, userInput);
  }

  /**
   * Two requests built around different live inputs agree in every member
   * but `contents`, and there in every turn but the last, the user turn
   * holding the input.
   */
  lemma FewShotDifferOnlyInLastTurn(system: string, question: string, answer: string, a: string, b: string)
    ensures var ra, rb := FewShotRequest(system, question, answer, a).members, FewShotRequest(system, question, answer, b).members;
      && Keys(ra) == Keys(rb)
      && ra[0] == rb[0] && ra[2..] == rb[2..]
      && ArrayAt(ra, "contents").Some? && ArrayAt(rb, "contents").Some?
      && |ArrayAt(ra, "contents").value| == |ArrayAt(rb, "contents").value| == 3
      && ArrayAt(ra, "contents").value[..2] == ArrayAt(rb, "contents").value[..2]
      && ArrayAt(ra, "contents").value[2] == Turn("user", a)
      && ArrayAt(rb, "contents").value[2] == Turn("user", b)
  {
    var ra, rb := FewShotRequest(system, question, answer, a).members, FewShotRequest(system, question, answer, b).members;
    assert ra[2..] == [ra[2], ra[3]] == [rb[2], rb[3]] == rb[2..];
    FewShotMembers(system, question, answer, a);
    FewShotMembers(system, question, answer, b);
    var prefix := [Turn("user", question), Turn("model", answer)];
    assert ArrayAt(ra, "contents").value == prefix + [Turn("user", a)];
    assert ArrayAt(rb, "contents").value == prefix + [Turn("user", b)];
  }

  /** Different queries never produce the same request. */
  lemma BuildRequestInjective(a: string, b: string)
    requires BuildRequest(a) == BuildRequest(b)
    ensures a == b
  {
    ReadBuiltRequest(a);
    ReadBuiltRequest(b);
    assert Conversation(EXAMPLE_QUESTION, EXAMPLE_ANSWER, a)[2].texts[0] == a;
  }
}

=== FILE: gemini_response.dfy ===
/**
 * The response side of `GeminiService`: finding the generated text in the
 * response envelope (`extractTextFromResponse`) and stripping the markdown
 * fence the model wraps around its JSON (`handleFinalResponse`).
 */
module GeminiResponse {
  import opened Wrappers
  import opened Json
  import opened JavaStrings

  /** `candidates[0].content.parts[0].text` */
  const TEXT_PATH: seq<Step> := [Key("candidates"), Index(0), Key("content"), Key("parts"), Index(0), Key("text")]

  /**
   * `extractTextFromResponse` on an already parsed body: only the first
   * candidate and its first part are consulted. A missing member, an empty
   * array, a null or a wrong shape on the way gives `None`, since every
   * exception there is caught and turned into a null return.
   */
  function ExtractText(root: Json): Option<string> {
    if !root.JObject? then None
    else
      match Get(root.members, "candidates")
      case Some(JArray(candidates)) =>
        if |candidates| == 0 || !candidates[0].JObject? then None
        else
          (match Get(candidates[0].members, "content")
           case Some(JObject(content)) =>
             (match Get(content, "parts")
              case Some(JArray(parts)) =>
                if |parts| == 0 || !parts[0].JObject? then None
                else
                  (match Get(parts[0].members, "text")
                   case Some(t) => AsString(t)
                   case None => None)
              case _ => None)
           case _ => None)
      case _ => None
  }

  /**
   * Extraction is a fixed path lookup followed by `getAsString`: it yields
   * a text exactly when every step of `candidates[0].content.parts[0].text`
   * exists with the right shape and the leaf converts to a string.
   */
  lemma ExtractFollowsPath(root: Json)
    ensures ExtractText(root) == match Navigate(root, TEXT_PATH) case Some(leaf) => AsString(leaf) case None => None
  {
    var p := TEXT_PATH;
    assert p[1..] == [Index(0), Key("content"), Key("parts"), Index(0), Key("text")];
    assert p[2..] == [Key("content"), Key("parts"), Index(0), Key("text")];
    assert p[3..] == [Key("parts"), Index(0), Key("text")];
    assert p[4..] == [Index(0), Key("text")];
    assert p[5..] == [Key("text")];
    assert p[1..][1..] == p[2..] && p[2..][1..] == p[3..] && p[3..][1..] == p[4..];
    assert p[4..][1..] == p[5..] && p[5..][1..] == [];
  }

  /** The smallest envelope carrying `text`. */
  function Envelope(text: string): Json {
    JObject([("candidates", JArray([
      JObject([("content", JObject([("parts", JArray([
        JObject([("text", JString(text))])]))]))])]))])
  }

  lemma ExtractEnvelope(text: string)
    ensures ExtractText(Envelope(text)) == Some(text)
  {
  }

  /** A response whose `candidates` array holds `candidates`. */
  function Candidates(candidates: seq<Json>): Json {
    JObject([("candidates", JArray(candidates))])
  }

  /** A candidate whose `content.parts` array holds `parts`. */
  function WithParts(parts: seq<Json>): Json {
    JObject([("content", JObject([("parts", JArray(parts))]))])
  }

  /** `getAsString` of a part's `text`, or `None` when the part has none. */
  function PartAnswer(part: Json): Option<string> {
    if !part.JObject? then None
    else
      match Get(part.members, "text")
      case Some(t) => AsString(t)
      case None => None
  }

  /**
   * Further candidates and further parts are never read: whatever follows
   * the first candidate changes nothing, and the answer of a candidate is
   * its first part's text whatever parts follow it.
   */
  lemma ExtractReadsOnlyFirst(first: Json, moreCandidates: seq<Json>, part: Json, moreParts: seq<Json>)
    ensures ExtractText(Candidates([first] + moreCandidates)) == ExtractText(Candidates([first]))
    ensures ExtractText(Candidates([WithParts([part] + moreParts)] + moreCandidates)) == PartAnswer(part)
  {
  }

  const FENCE: string := "```"
  const JSON_FENCE: string := "```json"

  /** `text.replace("```json", "").replace("```", "").trim()` */
  function CleanFences(text: string): (r: string)
    ensures !Contains(r, FENCE) && !Contains(r, JSON_FENCE)
    ensures Trimmed(r)
  {
    var unfenced := Replace(Replace(text, JSON_FENCE, ""), FENCE, "");
    NoFenceAfterRemoval(unfenced, Replace(text, JSON_FENCE, ""));
    var r := Trim(unfenced);
    NoFenceInTrim(unfenced);
    r
  }

  lemma NoFenceInTrim(s: string)
    requires !Contains(s, FENCE)
    ensures !Contains(Trim(s), FENCE) && !Contains(Trim(s), JSON_FENCE)
  {
    NoOccurrenceAfterTrimOf(s, FENCE, "json", JSON_FENCE);
  }

  lemma FenceChars(s: string)
    ensures StartsWith(s, FENCE) <==> |s| >= 3 && s[0] == '`' && s[1] == '`' && s[2] == '`'
  {
    if |s| >= 3 {
      assert s[..3][0] == s[0] && s[..3][1] == s[1] && s[..3][2] == s[2];
    }
  }

  /** If what is left after removal starts with a backtick, so did the input. */
  lemma RemovalKeepsLeadingTick(u: string)
    ensures Replace(u, FENCE, "") != [] && Replace(u, FENCE, "")[0] == '`' ==> u != [] && u[0] == '`'
  {
    FenceChars(u);
  }

  lemma RemovalKeepsLeadingTicks(u: string)
    ensures var r := Replace(u, FENCE, "");
      |r| >= 2 && r[0] == '`' && r[1] == '`' ==> |u| >= 2 && u[0] == '`' && u[1] == '`'
  {
    FenceChars(u);
    if u != [] && !StartsWith(u, FENCE) {
      var rest := Replace(u[1..], FENCE, "");
      assert Replace(u, FENCE, "") == [u[0]] + rest;
      RemovalKeepsLeadingTick(u[1..]);
    }
  }

  /** What `replace("```", "")` leaves never begins with a fence. */
  lemma {:induction false} RemovalNeverStartsWithFence(t: string)
    ensures !StartsWith(Replace(t, FENCE, ""), FENCE)
    decreases |t|
  {
    if t != [] {
      if StartsWith(t, FENCE) {
        RemovalNeverStartsWithFence(t[3..]);
      } else {
        var r := Replace(t, FENCE, "");
        assert r == [t[0]] + Replace(t[1..], FENCE, "");
        FenceChars(r);
        FenceChars(t);
        RemovalKeepsLeadingTicks(t[1..]);
      }
    }
  }

  /**
   * Removing every fence leaves no fence: since the pattern is one repeated
   * char, no new occurrence can form across a removed one.
   */
  lemma {:induction false} NoFenceAfterRemoval(r: string, t: string)
    requires r == Replace(t, FENCE, "")
    ensures !Contains(r, FENCE)
    decreases |t|
  {
    if t != [] {
      if StartsWith(t, FENCE) {
        NoFenceAfterRemoval(r, t[3..]);
      } else {
        RemovalNeverStartsWithFence(t);
        NoFenceAfterRemoval(Replace(t[1..], FENCE, ""), t[1..]);
        assert r[1..] == Replace(t[1..], FENCE, "");
      }
    }
  }

  /** Cleaning twice is cleaning once. */
  lemma CleanIdempotent(text: string)
    ensures CleanFences(CleanFences(text)) == CleanFences(text)
  {
    var c := CleanFences(text);
    assert Replace(c, JSON_FENCE, "") == c;
    assert Replace(c, FENCE, "") == c;
    TrimOfTrimmed(c);
  }

  /** Text without backticks and without surrounding spaces comes back unchanged. */
  lemma CleanKeepsPlainText(text: string)
    requires '`' !in text && Trimmed(text)
    ensures CleanFences(text) == text
  {
    if Contains(text, JSON_FENCE) { ContainsFirstChar(text, JSON_FENCE); }
    if Contains(text, FENCE) { ContainsFirstChar(text, FENCE); }
    TrimOfTrimmed(text);
  }

  /**
   * Unwrapping the markdown block the model is asked to produce: a JSON text
   * without backticks, fenced as "```json" ... "```" with any whitespace
   * (or none) inside the fence, is recovered exactly. The exemplar answer
   * has a line break after the opening fence and none before the closing one.
   */
  lemma CleanFencedJson(before: string, json: string, after: string)
    requires AllSpace(before) && AllSpace(after)
    requires '`' !in before + json + after && Trimmed(json)
    ensures CleanFences(JSON_FENCE + before + json + after + FENCE) == json
  {
    var body := before + json + after;
    var fenced := JSON_FENCE + before + json + after + FENCE;
    assert fenced == JSON_FENCE + (body + FENCE);
    assert StartsWith(fenced, JSON_FENCE);
    assert fenced[|JSON_FENCE|..] == body + FENCE;
    ReplaceSkipsPrefix(body, FENCE, JSON_FENCE, "");
    TooShortToContain(FENCE, JSON_FENCE);
    assert Replace(fenced, JSON_FENCE, "") == body + FENCE;
    ReplaceSkipsPrefix(body, FENCE, FENCE, "");
    assert StartsWith(FENCE, FENCE) && FENCE[3..] == [];
    assert Replace(FENCE, FENCE, "") == [];
    assert body + [] == body;
    TrimPadded(before, json, after);
  }
}

=== FILE: gemini_service.dfy ===
/**
 * `GeminiService.generateGroundedResponse` after the network exchange: how
 * the transport result, the response envelope and the generated JSON are
 * turned into either a biography or a typed failure.
 *
 * Gson is not modelled: `parseTree` stands for `JsonParser.parse` (`None`
 * when it throws) and `fromJson` for `gson.fromJson(..., GroundedResponse.class)`
 * on non-empty text.
 */
module GeminiService {
  import opened Wrappers
  import opened Json
  import opened JavaStrings
  import opened JavaIntegers
  import opened Http
  import opened GeminiResponse

  /** One element of `sources`: a JSON object read as an insertion-ordered `Map<String, String>`. */
  type SourceMap = seq<(string, Option<string>)>

  /** `GroundedResponse`: every field may be null when the JSON lacks it. */
  datatype GroundedResponse = GroundedResponse(
    name: Option<string>,
    birth: Option<string>,
    details: Option<string>,
    sources: Option<seq<SourceMap>>)

  /** What `gson.fromJson` does with non-empty text: a record, a null (for the text "null"), or an exception. */
  datatype Decoded = Decoded(response: GroundedResponse) | DecodedNull | Malformed(diagnostic: Option<string>)

  /** The failures handed to `GeminiCallback.onFailure`, one per cause. */
  datatype ClientError =
    | Network(message: Option<string>)
    | HttpStatus(code: int)
    | ExtractionFailed
    | ParseFailed(diagnostic: Option<string>)

  const STATUS_PREFIX: string := "API call failed with code: "
  const EXTRACTION_MESSAGE: string := "Could not extract generated text from API response."

  /** `getMessage()` of the exception each failure is reported with. */
  function ErrorMessage(e: ClientError): (r: Option<string>)
    ensures e.Network? ==> r == e.message
    ensures e.ParseFailed? ==> r == e.diagnostic
    ensures e.HttpStatus? ==> r.Some? && StartsWith(r.value, STATUS_PREFIX) && |r.value| > |STATUS_PREFIX|
    ensures e.ExtractionFailed? ==> r == Some(EXTRACTION_MESSAGE)
  {
    match e
    case Network(m) => m
    case HttpStatus(code) => Some(STATUS_PREFIX + IntToString(code))
    case ExtractionFailed => Some(EXTRACTION_MESSAGE)
    case ParseFailed(d) => d
  }

  /** The status-code failure's message names the code, and the code reads back from it. */
  lemma StatusMessageCarriesCode(code: int)
    requires InInt32(code)
    ensures var m := ErrorMessage(HttpStatus(code)).value;
      StartsWith(m, STATUS_PREFIX) && ParseInt(m[|STATUS_PREFIX|..]) == Some(code)
  {
    var m := STATUS_PREFIX + IntToString(code);
    assert m[..|STATUS_PREFIX|] == STATUS_PREFIX;
    assert m[|STATUS_PREFIX|..] == IntToString(code);
    ParseIntToString(code);
  }

  /** The model's text: parse the body, then walk `candidates[0].content.parts[0].text`. */
  function GeneratedText(body: string, parseTree: string -> Option<Json>): Option<string> {
    match parseTree(body)
    case Some(root) => ExtractText(root)
    case None => None
  }

  /** What the callback receives; `OnComplete(None)` is `onComplete(null)`. */
  datatype Delivery = OnComplete(response: Option<GroundedResponse>) | OnFailure(error: ClientError)

  /**
   * `handleFinalResponse` as written. An absent text fails before anything
   * is cleaned or decoded. `Gson.fromJson` returns null instead of throwing
   * when the cleaned text is empty (or is the literal "null"), and that null
   * is passed to `onComplete`; text Gson rejects fails with its diagnostic.
   */
  function HandleFinalResponseAsWritten(body: string, parseTree: string -> Option<Json>, fromJson: string -> Decoded): (r: Delivery)
    ensures GeneratedText(body, parseTree).None? ==> r == OnFailure(ExtractionFailed)
    ensures GeneratedText(body, parseTree).Some? ==>
      var clean := CleanFences(GeneratedText(body, parseTree).value);
      && (clean == [] ==> r == OnComplete(None))
      && (clean != [] ==>
           match fromJson(clean)
           case Decoded(g) => r == OnComplete(Some(g))
           case DecodedNull => r == OnComplete(None)
           case Malformed(d) => r == OnFailure(ParseFailed(d)))
    ensures r == OnComplete(None) <==>
      && GeneratedText(body, parseTree).Some?
      && var clean := CleanFences(GeneratedText(body, parseTree).value);
         clean == [] || fromJson(clean) == DecodedNull
  {
    match GeneratedText(body, parseTree)
    case None => OnFailure(ExtractionFailed)
    case Some(text) =>
      var clean := CleanFences(text);
      if clean == [] then OnComplete(None)
      else
        match fromJson(clean)
        case Decoded(g) => OnComplete(Some(g))
        case DecodedNull => OnComplete(None)
        case Malformed(d) => OnFailure(ParseFailed(d))
  }

  /**
   * An envelope whose text is an empty fenced block is reported as a
   * successful completion carrying null, whatever the JSON decoder does.
   */
  lemma EmptyFenceCompletesWithNull(body: string, parseTree: string -> Option<Json>, fromJson: string -> Decoded)
    requires parseTree(body) == Some(Envelope(JSON_FENCE + "\n" + "" + "\n" + FENCE))
    ensures HandleFinalResponseAsWritten(body, parseTree, fromJson) == OnComplete(None)
  {
    ExtractEnvelope(JSON_FENCE + "\n" + "" + "\n" + FENCE);
    CleanFencedJson("\n", "", "\n");
  }

  /** The diagnostic of the corrected empty-text failure. */
  const NO_JSON_MESSAGE: string := "Generated text holds no JSON object."

  /** The outcome of one request: a biography, or a typed failure. */
  datatype Outcome = Completed(response: GroundedResponse) | Failed(error: ClientError)

  /** The correction: a null completion is reported as a parse failure. */
  function RejectNull(d: Delivery): Outcome {
    match d
    case OnComplete(Some(g)) => Completed(g)
    case OnComplete(None) => Failed(ParseFailed(Some(NO_JSON_MESSAGE)))
    case OnFailure(e) => Failed(e)
  }

  /**
   * `handleFinalResponse` with the null result treated as a parse failure:
   * an absent text fails without any decoding, text that cleans to nothing
   * fails without being decoded, a decoded record completes with that
   * record, and a null or malformed decoding fails as a parse error.
   */
  function HandleFinalResponse(body: string, parseTree: string -> Option<Json>, fromJson: string -> Decoded): (r: Outcome)
    ensures GeneratedText(body, parseTree).None? ==> r == Failed(ExtractionFailed)
    ensures GeneratedText(body, parseTree).Some? ==>
      var clean := CleanFences(GeneratedText(body, parseTree).value);
      && (clean == [] ==> r == Failed(ParseFailed(Some(NO_JSON_MESSAGE))))
      && (clean != [] ==>
           match fromJson(clean)
           case Decoded(g) => r == Completed(g)
           case DecodedNull => r == Failed(ParseFailed(Some(NO_JSON_MESSAGE)))
           case Malformed(d) => r == Failed(ParseFailed(d)))
    ensures r.Completed? ==>
      && GeneratedText(body, parseTree).Some?
      && var clean := CleanFences(GeneratedText(body, parseTree).value);
         clean != [] && !Contains(clean, FENCE) && fromJson(clean) == Decoded(r.response)
  {
    RejectNull(HandleFinalResponseAsWritten(body, parseTree, fromJson))
  }

  /**
   * The correction changes exactly one thing: a null completion becomes a
   * parse failure; every other delivery is passed on unchanged.
   */
  lemma CorrectionOnlyRejectsNull(body: string, parseTree: string -> Option<Json>, fromJson: string -> Decoded)
    ensures match HandleFinalResponseAsWritten(body, parseTree, fromJson)
      case OnComplete(Some(g)) => HandleFinalResponse(body, parseTree, fromJson) == Completed(g)
      case OnComplete(None) => HandleFinalResponse(body, parseTree, fromJson) == Failed(ParseFailed(Some(NO_JSON_MESSAGE)))
      case OnFailure(e) => HandleFinalResponse(body, parseTree, fromJson) == Failed(e)
  {
  }

  /** The transport's answer: an I/O failure, or a response with a status and maybe a body. */
  datatype Exchange = TransportFailure(message: Option<string>) | HttpResponse(code: int, body: Option<string>)

  /** A 2xx response that carries a body, the only one whose body is parsed. */
  predicate Answered(exchange: Exchange) {
    exchange.HttpResponse? && IsSuccessful(exchange.code) && exchange.body.Some?
  }

  /**
   * `onFailure` and `onResponse` as written: a transport exception is passed
   * straight on; a non-2xx status or a missing body fails with the status
   * code and the body is never parsed; otherwise the body goes to
   * `handleFinalResponse`, whose null completion reaches the callback.
   */
  function GenerateGroundedResponse(exchange: Exchange, parseTree: string -> Option<Json>, fromJson: string -> Decoded): (r: Delivery)
    ensures exchange.TransportFailure? ==> r == OnFailure(Network(exchange.message))
    ensures exchange.HttpResponse? && !Answered(exchange) ==> r == OnFailure(HttpStatus(exchange.code))
    ensures Answered(exchange) ==> r == HandleFinalResponseAsWritten(exchange.body.value, parseTree, fromJson)
    ensures r.OnComplete? ==> Answered(exchange)
    ensures r.OnFailure? && r.error.HttpStatus? ==> exchange.HttpResponse? && r.error.code == exchange.code
  {
    match exchange
    case TransportFailure(m) => OnFailure(Network(m))
    case HttpResponse(code, body) =>
      if !IsSuccessful(code) || body.None? then OnFailure(HttpStatus(code))
      else HandleFinalResponseAsWritten(body.value, parseTree, fromJson)
  }

  /** The service with the corrected handler: every request ends in a biography or a typed failure. */
  function GenerateGroundedResponseCorrected(exchange: Exchange, parseTree: string -> Option<Json>, fromJson: string -> Decoded): (r: Outcome)
    ensures exchange.TransportFailure? ==> r == Failed(Network(exchange.message))
    ensures exchange.HttpResponse? && !Answered(exchange) ==> r == Failed(HttpStatus(exchange.code))
    ensures Answered(exchange) ==> r == HandleFinalResponse(exchange.body.value, parseTree, fromJson)
    ensures r.Completed? ==> Answered(exchange)
  {
    RejectNull(GenerateGroundedResponse(exchange, parseTree, fromJson))
  }

  /**
   * A 2xx response whose text is an empty fenced block reaches the caller's
   * `onComplete` with null, while the corrected service reports a parse failure.
   */
  lemma EmptyFenceReachesCallback(body: string, parseTree: string -> Option<Json>, fromJson: string -> Decoded)
    requires parseTree(body) == Some(Envelope(JSON_FENCE + "\n" + "" + "\n" + FENCE))
    ensures GenerateGroundedResponse(HttpResponse(200, Some(body)), parseTree, fromJson) == OnComplete(None)
    ensures GenerateGroundedResponseCorrected(HttpResponse(200, Some(body)), parseTree, fromJson)
         == Failed(ParseFailed(Some(NO_JSON_MESSAGE)))
  {
    var x := HttpResponse(200, Some(body));
    assert Answered(x);
    EmptyFenceCompletesWithNull(body, parseTree, fromJson);
    assert GenerateGroundedResponse(x, parseTree, fromJson) == OnComplete(None);
  }
}

=== FILE: http.dfy ===
/** The one HTTP fact both network callers use. */
module Http {

  /** OkHttp's `Response.isSuccessful()`, which Retrofit's response delegates to: a 2xx status. */
  predicate IsSuccessful(code: int) {
    200 <= code < 300
  }
}

=== FILE: java_integers.dfy ===
/**
 * `Integer.parseInt` and `Integer.toString` on 32-bit Java ints, for ASCII
 * decimal text.
 */
module JavaIntegers {
  import opened Wrappers

  const INT_MIN: int := -0x8000_0000
  const INT_MAX: int := 0x7fff_ffff

  predicate InInt32(n: int) {
    INT_MIN <= n <= INT_MAX
  }

  predicate IsDigit(c: char) {
    '0' <= c <= '9'
  }

  predicate AllDigits(s: string) {
    forall i :: 0 <= i < |s| ==> IsDigit(s[i])
  }

  /** The unbounded value of a run of decimal digits, most significant first. */
  function DigitsValue(s: string): nat
    requires AllDigits(s)
    decreases |s|
  {
    if s == [] then 0 else 10 * DigitsValue(s[..|s| - 1]) + (s[|s| - 1] as int - '0' as int)
  }

  predicate IsSign(c: char) {
    c == '-' || c == '+'
  }

  /** The digit run of a numeral: everything after a leading sign. */
  function Magnitude(s: string): string {
    if s != [] && IsSign(s[0]) then s[1..] else s
  }

  /** The syntax `Integer.parseInt` accepts: an optional sign, then one or more digits and nothing else. */
  predicate Numeral(s: string) {
    Magnitude(s) != [] && AllDigits(Magnitude(s))
  }

  /** The unbounded value a numeral denotes. */
  function NumeralValue(s: string): int
    requires Numeral(s)
  {
    var magnitude: int := DigitsValue(Magnitude(s));
    if s[0] == '-' then -magnitude else magnitude
  }

  /**
   * `Integer.parseInt(s)`: an optional '+' or '-', then at least one digit,
   * and a value inside the int range; anything else throws
   * NumberFormatException, which is `None` here.
   */
  function ParseInt(s: string): (r: Option<int>)
    ensures r.Some? <==> Numeral(s) && InInt32(NumeralValue(s))
    ensures r.Some? ==> r.value == NumeralValue(s) && InInt32(r.value)
  {
    if s == [] then None
    else if s[0] == '-' || s[0] == '+' then
      if |s| == 1 || !AllDigits(s[1..]) then None
      else
        var magnitude: int := DigitsValue(s[1..]);
        var v := if s[0] == '-' then -magnitude else magnitude;
        if InInt32(v) then Some(v) else None
    else if !AllDigits(s) then None
    else if InInt32(DigitsValue(s)) then Some(DigitsValue(s)) else None
  }

  /** Decimal digits of `n`, without leading zeros. */
  function NatToDigits(n: nat): (r: string)
    ensures r != [] && AllDigits(r) && DigitsValue(r) == n
    ensures r[0] != '0' || n == 0
    decreases n
  {
    var last := ['0' + (n % 10) as char];
    if n < 10 then last
    else
      var r := NatToDigits(n / 10) + last;
      assert r[..|r| - 1] == NatToDigits(n / 10);
      r
  }

  /** `Integer.toString(n)`, also what `"..." + n` produces for an int. */
  function IntToString(n: int): string {
    if n < 0 then "-" + NatToDigits(-n) else NatToDigits(n)
  }

  /** Text without a single digit, such as a year written in words, never parses. */
  lemma ParseIntNeedsADigit(s: string)
    requires forall i :: 0 <= i < |s| ==> !IsDigit(s[i])
    ensures ParseInt(s) == None
  {
    if |s| > 1 {
      assert !IsDigit(s[1..][0]);
    }
  }

  /**
   * A char that is neither a digit nor the leading sign, such as the space
   * of "44 BC", makes the text unparsable wherever it stands.
   */
  lemma StrayCharRejected(s: string, k: nat)
    requires k < |s| && !IsDigit(s[k]) && (k > 0 || !IsSign(s[k]))
    ensures ParseInt(s) == None
  {
    if IsSign(s[0]) {
      assert Magnitude(s)[k - 1] == s[k];
    } else {
      assert Magnitude(s)[k] == s[k];
    }
  }

  /** Every int's decimal text reads back as that int. */
  lemma ParseIntToString(n: int)
    requires InInt32(n)
    ensures ParseInt(IntToString(n)) == Some(n)
  {
    if n < 0 {
      var s := IntToString(n);
      assert s[1..] == NatToDigits(-n);
    }
  }
}


=== FILE: java_strings.dfy ===
/**
 * The parts of java.lang.String the application relies on: `replace` with a
 * literal target, `trim`, and string concatenation of a possibly-null value.
 */
module JavaStrings {
  import opened Wrappers

  /** Java's `+` on strings renders a null reference as the four letters "null". */
  function Show(s: Option<string>): string {
    match s
    case Some(v) => v
    case None => "null"
  }

  predicate StartsWith(s: string, p: string) {
    |p| <= |s| && s[..|p|] == p
  }

  /** `p` occurs somewhere in `s` as a contiguous block. */
  predicate Contains(s: string, p: string)
    decreases |s|
  {
    StartsWith(s, p) || (s != [] && Contains(s[1..], p))
  }

  /**
   * `s.replace(target, replacement)` for a non-empty literal target: the
   * leftmost occurrence is replaced, scanning resumes just after it.
   */
  function Replace(s: string, target: string, replacement: string): (r: string)
    requires target != []
    ensures !Contains(s, target) ==> r == s
    ensures replacement == [] ==> |r| <= |s|
    decreases |s|
  {
    if s == [] then []
    else if StartsWith(s, target) then replacement + Replace(s[|target|..], target, replacement)
    else [s[0]] + Replace(s[1..], target, replacement)
  }

  /** `String.trim` removes every leading and trailing char whose code is at most U+0020. */
  predicate IsSpace(c: char) {
    c <= ' '
  }

  predicate AllSpace(s: string) {
    forall i :: 0 <= i < |s| ==> IsSpace(s[i])
  }

  /** Neither end of `s` is a char that `trim` would remove. */
  predicate Trimmed(s: string) {
    s == [] || (!IsSpace(s[0]) && !IsSpace(s[|s| - 1]))
  }

  function LeadingSpaces(s: string): (n: nat)
    ensures n <= |s|
    ensures AllSpace(s[..n])
    ensures n < |s| ==> !IsSpace(s[n])
    decreases |s|
  {
    if s != [] && IsSpace(s[0]) then 1 + LeadingSpaces(s[1..]) else 0
  }

  function TrailingSpaces(s: string): (n: nat)
    ensures n <= |s|
    ensures AllSpace(s[|s| - n..])
    ensures n < |s| ==> !IsSpace(s[|s| - n - 1])
    decreases |s|
  {
    if s != [] && IsSpace(s[|s| - 1]) then
      var init := s[..|s| - 1];
      var m := TrailingSpaces(init);
      assert forall i :: |s| - (m + 1) <= i < |s| - 1 ==> s[i] == init[|init| - m..][i - (|init| - m)];
      m + 1
    else 0
  }

  /** Where the block `trim` keeps ends: before the trailing spaces that follow the leading ones. */
  function TrimEnd(s: string): (b: nat)
    ensures LeadingSpaces(s) <= b <= |s|
    ensures AllSpace(s[b..])
    ensures LeadingSpaces(s) < b ==> !IsSpace(s[b - 1])
  {
    var a := LeadingSpaces(s);
    var n := TrailingSpaces(s[a..]);
    assert s[a..][|s[a..]| - n..] == s[|s| - n..];
    |s| - n
  }

  /** `s.trim()`: the block between the leading and the trailing space-only margins. */
  function Trim(s: string): (r: string)
    ensures Trimmed(r)
    ensures AllSpace(s[..LeadingSpaces(s)]) && AllSpace(s[TrimEnd(s)..])
    ensures s == s[..LeadingSpaces(s)] + r + s[TrimEnd(s)..]
  {
    var a, b := LeadingSpaces(s), TrimEnd(s);
    SplitThree(s, a, b);
    s[a..b]
  }

  lemma SplitThree(s: string, a: nat, b: nat)
    requires a <= b <= |s|
    ensures s == s[..a] + s[a..b] + s[b..]
  {
    assert s[..b] == s[..a] + s[a..b];
  }

  /** A space-only prefix followed by a non-space (or nothing) is exactly the leading margin. */
  lemma {:induction false} LeadingSpacesExact(s: string, a: nat)
    requires a <= |s| && AllSpace(s[..a]) && (a < |s| ==> !IsSpace(s[a]))
    ensures LeadingSpaces(s) == a
    decreases a
  {
    if a > 0 {
      assert s[..a][0] == s[0];
      assert s[1..][..a - 1] == s[..a][1..];
      LeadingSpacesExact(s[1..], a - 1);
    }
  }

  /** A space-only suffix preceded by a non-space (or nothing) is exactly the trailing margin. */
  lemma {:induction false} TrailingSpacesExact(s: string, n: nat)
    requires n <= |s| && AllSpace(s[|s| - n..]) && (n < |s| ==> !IsSpace(s[|s| - n - 1]))
    ensures TrailingSpaces(s) == n
    decreases n
  {
    if n > 0 {
      var init := s[..|s| - 1];
      assert s[|s| - n..][n - 1] == s[|s| - 1];
      assert init[|init| - (n - 1)..] == s[|s| - n..][..n - 1];
      TrailingSpacesExact(init, n - 1);
    }
  }

  /** `trim` has exactly one answer: the block left after removing space-only margins. */
  lemma TrimUnique(s: string, a: nat, b: nat)
    requires a <= b <= |s|
    requires AllSpace(s[..a]) && AllSpace(s[b..]) && Trimmed(s[a..b])
    ensures Trim(s) == s[a..b]
  {
    if a < b {
      assert s[a..b][0] == s[a] && s[a..b][b - a - 1] == s[b - 1];
      LeadingSpacesExact(s, a);
      var t := s[a..];
      assert t[|t| - (|s| - b)..] == s[b..];
      assert t[|t| - (|s| - b) - 1] == s[b - 1];
      TrailingSpacesExact(t, |s| - b);
    } else {
      assert AllSpace(s) by {
        forall i | 0 <= i < |s| ensures IsSpace(s[i]) {
          if i < a { assert s[..a][i] == s[i]; } else { assert s[b..][i - b] == s[i]; }
        }
      }
      assert s[..|s|] == s;
      LeadingSpacesExact(s, |s|);
    }
  }

  /** `NoOccurrenceAfterTrim` with the longer pattern given by name. */
  lemma NoOccurrenceAfterTrimOf(s: string, p: string, q: string, pq: string)
    requires pq == p + q && !Contains(s, p)
    ensures !Contains(Trim(s), p) && !Contains(Trim(s), pq)
  {
    NoOccurrenceAfterTrim(s, p, q);
  }

  /** Trimming never creates an occurrence of `p`, nor of any longer pattern starting with `p`. */
  lemma NoOccurrenceAfterTrim(s: string, p: string, q: string)
    requires !Contains(s, p)
    ensures !Contains(Trim(s), p) && !Contains(Trim(s), p + q)
  {
    ContainsTrim(s, p);
    ContainsPrefixOfPattern(Trim(s), p, q);
  }

  /** Trimming space-padded text that is already trimmed gives back that text. */
  lemma TrimPadded(before: string, t: string, after: string)
    requires AllSpace(before) && AllSpace(after) && Trimmed(t)
    ensures Trim(before + t + after) == t
  {
    var s := before + t + after;
    assert s[..|before|] == before;
    assert s[|before| + |t|..] == after;
    assert s[|before|..|before| + |t|] == t;
    TrimUnique(s, |before|, |before| + |t|);
  }

  lemma TrimOfTrimmed(t: string)
    requires Trimmed(t)
    ensures Trim(t) == t
  {
    TrimPadded([], t, []);
    assert [] + t + [] == t;
  }

  lemma {:induction false} StartsWithLonger(s: string, p: string, q: string)
    requires StartsWith(s, p + q)
    ensures StartsWith(s, p)
  {
    assert s[..|p|] == s[..|p + q|][..|p|];
  }

  /** Whoever contains `p + q` contains `p`. */
  lemma {:induction false} ContainsPrefixOfPattern(s: string, p: string, q: string)
    ensures Contains(s, p + q) ==> Contains(s, p)
    decreases |s|
  {
    if StartsWith(s, p + q) {
      StartsWithLonger(s, p, q);
    } else if s != [] {
      ContainsPrefixOfPattern(s[1..], p, q);
    }
  }

  lemma {:induction false} ContainsAppendRight(x: string, z: string, p: string)
    requires Contains(x, p)
    ensures Contains(x + z, p)
    decreases |x|
  {
    if StartsWith(x, p) {
      assert (x + z)[..|p|] == x[..|p|];
    } else {
      ContainsAppendRight(x[1..], z, p);
      assert (x + z)[1..] == x[1..] + z;
    }
  }

  lemma {:induction false} ContainsAppendLeft(y: string, x: string, p: string)
    requires Contains(x, p)
    ensures Contains(y + x, p)
    decreases |y|
  {
    if y != [] {
      ContainsAppendLeft(y[1..], x, p);
      assert (y + x)[1..] == y[1..] + x;
    } else {
      assert y + x == x;
    }
  }

  /** A block of `s` that contains `p` makes `s` contain `p`. */
  lemma ContainsInfix(s: string, a: nat, b: nat, p: string)
    requires a <= b <= |s|
    ensures Contains(s[a..b], p) ==> Contains(s, p)
  {
    if Contains(s[a..b], p) {
      ContainsAppendRight(s[a..b], s[b..], p);
      ContainsAppendLeft(s[..a], s[a..b] + s[b..], p);
      assert s[..a] + (s[a..b] + s[b..]) == s;
    }
  }

  /** Trimming never creates an occurrence. */
  lemma ContainsTrim(s: string, p: string)
    ensures Contains(Trim(s), p) ==> Contains(s, p)
  {
    ContainsInfix(s, LeadingSpaces(s), TrimEnd(s), p);
  }

  /** An occurrence of a non-empty pattern puts its first char into `s`. */
  lemma {:induction false} ContainsFirstChar(s: string, p: string)
    requires p != [] && Contains(s, p)
    ensures p[0] in s
    decreases |s|
  {
    if StartsWith(s, p) {
      assert s[0] == s[..|p|][0];
    } else {
      ContainsFirstChar(s[1..], p);
    }
  }

  lemma {:induction false} TooShortToContain(s: string, p: string)
    requires |s| < |p|
    ensures !Contains(s, p)
    decreases |s|
  {
    if s != [] {
      TooShortToContain(s[1..], p);
    }
  }

  lemma StartsWithFirstChar(s: string, p: string)
    ensures StartsWith(s, p) && p != [] ==> s != [] && s[0] == p[0]
  {
    if StartsWith(s, p) && p != [] {
      assert s[..|p|][0] == s[0];
    }
  }

  /** A prefix free of the target's first char passes through `replace` untouched. */
  lemma {:induction false} ReplaceSkipsPrefix(x: string, y: string, target: string, replacement: string)
    requires target != [] && target[0] !in x
    ensures Replace(x + y, target, replacement) == x + Replace(y, target, replacement)
    decreases |x|
  {
    if x != [] {
      StartsWithFirstChar(x + y, target);
      assert (x + y)[0] == x[0];
      ReplaceSkipsPrefix(x[1..], y, target, replacement);
      assert (x + y)[1..] == x[1..] + y;
      assert [x[0]] + x[1..] == x;
    } else {
      assert x + y == y;
    }
  }
}

=== FILE: json.dfy ===
/**
 * The JSON tree Gson builds (`JsonElement` and its subclasses). A number
 * keeps its literal text, so no floating-point value is ever interpreted.
 */
module Json {
  import opened Wrappers

  datatype Json =
    | JNull
    | JBool(b: bool)
    | JNumber(literal: string)
    | JString(str: string)
    | JArray(elems: seq<Json>)
    | JObject(members: seq<(string, Json)>)

  /** `JsonObject.get(key)`: the member's value, or null when the key is absent. */
  function Get(members: seq<(string, Json)>, key: string): (r: Option<Json>)
    ensures r.Some? ==> (key, r.value) in members
    ensures r.None? ==> forall i :: 0 <= i < |members| ==> members[i].0 != key
  {
    if members == [] then None
    else if members[0].0 == key then Some(members[0].1)
    else Get(members[1..], key)
  }

  /** A Gson object never holds one key twice. */
  predicate DistinctKeys(members: seq<(string, Json)>) {
    forall i, j :: 0 <= i < j < |members| ==> members[i].0 != members[j].0
  }

  /** The keys of an object's members, in insertion order. */
  function Keys(members: seq<(string, Json)>): (r: seq<string>)
    ensures |r| == |members|
    ensures forall i :: 0 <= i < |members| ==> r[i] == members[i].0
  {
    if members == [] then [] else [members[0].0] + Keys(members[1..])
  }

  /** With distinct keys, a member is exactly what the lookup of its key returns. */
  lemma {:induction false} GetMember(members: seq<(string, Json)>, key: string, v: Json)
    requires DistinctKeys(members)
    ensures Get(members, key) == Some(v) <==> (key, v) in members
  {
    if members != [] && (key, v) in members {
      if members[0].0 == key {
        var i :| 0 <= i < |members| && members[i] == (key, v);
        assert i == 0;
      } else {
        assert (key, v) in members[1..] by {
          var i :| 0 <= i < |members| && members[i] == (key, v);
          assert members[1..][i - 1] == members[i];
        }
        GetMember(members[1..], key, v);
      }
    }
  }

  /**
   * `JsonElement.getAsString()`: a primitive renders as its text, a
   * one-element array delegates to that element, and every other shape
   * (null, object, any other array) throws, which is `None` here.
   */
  function AsString(j: Json): (r: Option<string>)
    ensures j.JString? ==> r == Some(j.str)
    ensures j.JNumber? ==> r == Some(j.literal)
    ensures j.JBool? ==> r == Some(if j.b then "true" else "false")
    ensures j.JArray? ==> r == if |j.elems| == 1 then AsString(j.elems[0]) else None
    ensures j.JNull? || j.JObject? ==> r == None
  {
    match j
    case JString(s) => Some(s)
    case JNumber(lit) => Some(lit)
    case JBool(b) => Some(if b then "true" else "false")
    case JArray(es) => if |es| == 1 then AsString(es[0]) else None
    case _ => None
  }

  /** One step of a fixed path: an object key or an array position. */
  datatype Step = Key(name: string) | Index(pos: nat)

  /** Follows `path` from `j`; any missing key, short array or wrong shape gives `None`. */
  function Navigate(j: Json, path: seq<Step>): (r: Option<Json>)
    decreases |path|
  {
    if path == [] then Some(j)
    else
      var next :=
        match path[0]
        case Key(k) => if j.JObject? then Get(j.members, k) else None
        case Index(i) => if j.JArray? && i < |j.elems| then Some(j.elems[i]) else None;
      match next
      case None => None
      case Some(child) => Navigate(child, path[1..])
  }
}

=== FILE: main_activity.dfy ===
/**
 * `MainActivity`: the date it asks the history API for, and how the
 * returned deaths become list rows: sorted by numeric year, grouped by the
 * raw year string in first-seen order (a `LinkedHashMap`), and flattened
 * into one header per year followed by that year's deaths.
 */
module MainActivity {
  import opened Wrappers
  import opened JavaStrings
  import opened JavaIntegers
  import opened Http
  import opened DisplayItems
  import opened StableSort
  import opened Extras

  /** The `month` and `day` path parameters of the history request. */
  datatype HistoryDate = HistoryDate(month: int, day: int)

  /**
   * `Calendar.MONTH` counts from 0, so the request adds one;
   * `Calendar.DAY_OF_MONTH` is used as it is.
   */
  function RequestedDate(calendarMonth: int, dayOfMonth: int): (r: HistoryDate)
    requires 0 <= calendarMonth <= 11 && 1 <= dayOfMonth <= 31
    ensures 1 <= r.month <= 12 && r.month - 1 == calendarMonth
    ensures r.day == dayOfMonth
  {
    HistoryDate(calendarMonth + 1, dayOfMonth)
  }

  // ---------------------------------------------------------------- sorting

  /** The comparator's key, `Integer.parseInt(year)`, for a year that parses. */
  function YearValue(year: string): int {
    ParseInt(year).GetOr(0)
  }

  function YearKey(d: Death): int {
    YearValue(d.year)
  }

  predicate YearsParse(deaths: seq<Death>) {
    forall i :: 0 <= i < |deaths| ==> ParseInt(deaths[i].year).Some?
  }

  /**
   * `Collections.sort(deaths, byParsedYear)`. The comparator only runs when
   * there are two or more deaths, and then every death takes part in a
   * comparison, so any unparsable year throws; the exception escapes the
   * callback, which is `None` here.
   */
  function SortByYear(deaths: seq<Death>): (r: Option<seq<Death>>)
    ensures r.Some? <==> |deaths| <= 1 || YearsParse(deaths)
    ensures r.Some? ==> SortedBy(r.value, YearKey) && multiset(r.value) == multiset(deaths)
    ensures r.Some? ==> forall k :: WithKey(r.value, YearKey, k) == WithKey(deaths, YearKey, k)
  {
    if |deaths| <= 1 then Some(deaths)
    else if YearsParse(deaths) then SortCorrect(deaths, YearKey); Some(Sort(deaths, YearKey))
    else None
  }

  /**
   * The order is the only stable one: any arrangement sorted by year that
   * keeps each year's deaths in API order is the one `SortByYear` returns.
   */
  lemma SortByYearIsTheStableOrder(deaths: seq<Death>, other: seq<Death>)
    requires SortByYear(deaths).Some?
    requires SortedBy(other, YearKey) && forall k :: WithKey(other, YearKey, k) == WithKey(deaths, YearKey, k)
    ensures SortByYear(deaths).value == other
  {
    StableSortUnique(SortByYear(deaths).value, other, YearKey);
  }

  // --------------------------------------------------------------- grouping

  function Years(deaths: seq<Death>): (r: seq<string>)
    ensures |r| == |deaths| && forall i :: 0 <= i < |deaths| ==> r[i] == deaths[i].year
  {
    seq(|deaths|, i requires 0 <= i < |deaths| => deaths[i].year)
  }

  /** The deaths whose raw year string is `year`, in list order. */
  function WithYear(deaths: seq<Death>, year: string): (r: seq<Death>)
    ensures forall i :: 0 <= i < |r| ==> r[i].year == year
    ensures |r| <= |deaths|
  {
    if deaths == [] then []
    else WithYear(deaths[..|deaths| - 1], year) + (if deaths[|deaths| - 1].year == year then [deaths[|deaths| - 1]] else [])
  }

  predicate NoDuplicates(ys: seq<string>) {
    forall i, j :: 0 <= i < j < |ys| ==> ys[i] != ys[j]
  }

  /** The position of the first `y` in `ys`. */
  function FirstIndex(ys: seq<string>, y: string): (n: nat)
    requires y in ys
    ensures n < |ys| && ys[n] == y && y !in ys[..n]
  {
    if ys[0] == y then 0 else 1 + FirstIndex(ys[1..], y)
  }

  /** Each distinct string once, in the order of its first appearance. */
  function FirstAppearances(ys: seq<string>): (r: seq<string>)
    ensures NoDuplicates(r)
    ensures forall y :: y in r <==> y in ys
  {
    if ys == [] then []
    else
      var prefix := FirstAppearances(ys[..|ys| - 1]);
      var y := ys[|ys| - 1];
      assert forall z :: z in ys <==> z in ys[..|ys| - 1] || z == y by {
        assert ys == ys[..|ys| - 1] + [y];
      }
      if y in prefix then prefix else prefix + [y]
  }

  lemma {:induction false} FirstIndexPrefix(ys: seq<string>, n: nat, y: string)
    requires n <= |ys| && y in ys[..n]
    ensures FirstIndex(ys, y) == FirstIndex(ys[..n], y)
    decreases n
  {
    if ys[0] != y {
      assert ys[..n][1..] == ys[1..][..n - 1];
      FirstIndexPrefix(ys[1..], n - 1, y);
    }
  }

  /** The strings of `r`, all drawn from `ys`, are listed in the order they first occur in `ys`. */
  predicate InFirstIndexOrder(ys: seq<string>, r: seq<string>)
    requires forall y :: y in r ==> y in ys
  {
    forall i, j :: 0 <= i < j < |r| ==> FirstIndex(ys, r[i]) < FirstIndex(ys, r[j])
  }

  /** First appearances are listed in increasing order of where they first appear. */
  lemma {:induction false} FirstAppearancesOrdered(ys: seq<string>)
    ensures InFirstIndexOrder(ys, FirstAppearances(ys))
    decreases |ys|
  {
    if ys != [] {
      var init, y := ys[..|ys| - 1], ys[|ys| - 1];
      FirstAppearancesOrdered(init);
      var p := FirstAppearances(init);
      forall z | z in p ensures FirstIndex(ys, z) == FirstIndex(init, z) {
        FirstIndexPrefix(ys, |ys| - 1, z);
        assert ys[..|ys| - 1] == init;
      }
      if y !in p {
        assert FirstIndex(ys, y) == |ys| - 1 by {
          assert forall k :: 0 <= k < |init| ==> init[k] == ys[k];
        }
        var r := p + [y];
        assert FirstAppearances(ys) == r;
        forall i, j | 0 <= i < j < |r| ensures FirstIndex(ys, r[i]) < FirstIndex(ys, r[j]) {
          assert r[i] == p[i] && p[i] in p;
          assert FirstIndex(ys, r[i]) == FirstIndex(init, p[i]);
          if j == |p| {
            assert FirstIndex(init, p[i]) < |init|;
            assert r[j] == y;
            assert FirstIndex(ys, r[j]) == |ys| - 1;
          } else {
            assert r[j] == p[j] && p[j] in p;
            assert FirstIndex(ys, r[j]) == FirstIndex(init, p[j]);
            assert FirstIndex(init, p[i]) < FirstIndex(init, p[j]);
          }
        }
      }
    }
  }

  /**
   * The `LinkedHashMap<String, List<Death>>`: keys in insertion order and
   * the list stored under each key.
   */
  datatype YearGroups = YearGroups(order: seq<string>, groups: map<string, seq<Death>>)

  ghost predicate ValidGroups(g: YearGroups) {
    NoDuplicates(g.order) && forall y :: y in g.groups <==> y in g.order
  }

  /** One pass of the grouping loop: open a list for a new year, then append the death to its year's list. */
  function Put(g: YearGroups, d: Death): YearGroups {
    if d.year in g.groups then YearGroups(g.order, g.groups[d.year := g.groups[d.year] + [d]])
    else YearGroups(g.order + [d.year], g.groups[d.year := [d]])
  }

  /** The grouping loop over `deaths`. */
  function GroupByYear(deaths: seq<Death>): (g: YearGroups)
    ensures ValidGroups(g)
  {
    if deaths == [] then YearGroups([], map[])
    else
      var g := GroupByYear(deaths[..|deaths| - 1]);
      PutValid(g, deaths[|deaths| - 1]);
      Put(g, deaths[|deaths| - 1])
  }

  lemma PutValid(g: YearGroups, d: Death)
    requires ValidGroups(g)
    ensures ValidGroups(Put(g, d))
  {
    var g' := Put(g, d);
    if d.year !in g.groups {
      forall i, j | 0 <= i < j < |g'.order| ensures g'.order[i] != g'.order[j] {
        if j == |g.order| {
          assert g'.order[i] == g.order[i];
        }
      }
    }
  }

  /** The keys are the distinct year strings, in the order they first appear in `deaths`. */
  lemma {:induction false} GroupByYearOrder(deaths: seq<Death>)
    ensures GroupByYear(deaths).order == FirstAppearances(Years(deaths))
  {
    if deaths != [] {
      var init, d := deaths[..|deaths| - 1], deaths[|deaths| - 1];
      GroupByYearOrder(init);
      assert Years(deaths)[..|deaths| - 1] == Years(init);
    }
  }

  /** Each key holds exactly the deaths with that year string, in list order. */
  lemma {:induction false} GroupByYearLists(deaths: seq<Death>)
    ensures var g := GroupByYear(deaths);
      forall y :: y in g.groups ==> g.groups[y] == WithYear(deaths, y)
  {
    if deaths != [] {
      var init, d := deaths[..|deaths| - 1], deaths[|deaths| - 1];
      GroupByYearLists(init);
      var g := GroupByYear(init);
      var g' := GroupByYear(deaths);
      assert g' == Put(g, d);
      forall y | y in g'.groups ensures g'.groups[y] == WithYear(deaths, y) {
        if y == d.year && d.year !in g.groups {
          GroupByYearOrder(init);
          assert y !in Years(init);
          WithYearAbsent(init, y);
        }
      }
    }
  }

  /** The multiset of all deaths held under the keys `ks`. */
  function Contents(ks: seq<string>, m: map<string, seq<Death>>): multiset<Death>
    requires forall k :: k in ks ==> k in m
  {
    if ks == [] then multiset{} else multiset(m[ks[0]]) + Contents(ks[1..], m)
  }

  lemma {:induction false} ContentsFrame(ks: seq<string>, m: map<string, seq<Death>>, y: string, v: seq<Death>)
    requires forall k :: k in ks ==> k in m
    requires y !in ks
    ensures Contents(ks, m[y := v]) == Contents(ks, m)
  {
    if ks != [] {
      ContentsFrame(ks[1..], m, y, v);
    }
  }

  lemma {:induction false} ContentsAppendKey(ks: seq<string>, k: string, m: map<string, seq<Death>>)
    requires forall x :: x in ks + [k] ==> x in m
    ensures Contents(ks + [k], m) == Contents(ks, m) + multiset(m[k])
  {
    if ks == [] {
      assert ks + [k] == [k];
      assert [k][1..] == [];
    } else {
      assert (ks + [k])[1..] == ks[1..] + [k];
      ContentsAppendKey(ks[1..], k, m);
    }
  }

  lemma {:induction false} ContentsGrow(ks: seq<string>, m: map<string, seq<Death>>, y: string, d: Death)
    requires forall k :: k in ks ==> k in m
    requires NoDuplicates(ks) && y in ks && y in m
    ensures Contents(ks, m[y := m[y] + [d]]) == Contents(ks, m) + multiset{d}
  {
    if ks[0] == y {
      assert y !in ks[1..];
      ContentsFrame(ks[1..], m, y, m[y] + [d]);
    } else {
      ContentsGrow(ks[1..], m, y, d);
    }
  }

  /** Putting a death adds exactly that death to the map's contents. */
  lemma ContentsPut(g: YearGroups, d: Death)
    requires ValidGroups(g)
    ensures ValidGroups(Put(g, d)) ==> Contents(Put(g, d).order, Put(g, d).groups) == Contents(g.order, g.groups) + multiset{d}
  {
    if d.year in g.groups {
      ContentsGrow(g.order, g.groups, d.year, d);
    } else {
      ContentsFrame(g.order, g.groups, d.year, [d]);
      ContentsAppendKey(g.order, d.year, g.groups[d.year := [d]]);
    }
  }

  /** The grouping loses and duplicates nothing: its lists together hold exactly the input deaths. */
  lemma {:induction false} GroupByYearContents(deaths: seq<Death>)
    ensures var g := GroupByYear(deaths); Contents(g.order, g.groups) == multiset(deaths)
  {
    if deaths != [] {
      var init, d := deaths[..|deaths| - 1], deaths[|deaths| - 1];
      var g := GroupByYear(init);
      GroupByYearContents(init);
      ContentsPut(g, d);
      assert GroupByYear(deaths) == Put(g, d);
      assert multiset(deaths) == multiset(init) + multiset{d} by {
        assert deaths == init + [d];
      }
    }
  }

  // ------------------------------------------------------------- flattening

  function DeathRows(deaths: seq<Death>): (r: seq<DisplayItem>)
    ensures |r| == |deaths| && forall i :: 0 <= i < |r| ==> r[i] == DeathRow(deaths[i])
  {
    seq(|deaths|, i requires 0 <= i < |deaths| => DeathRow(deaths[i]))
  }

  /** The row-building loop: for each key, a header, then one row per death in its list. */
  function Flatten(ks: seq<string>, m: map<string, seq<Death>>): seq<DisplayItem>
    requires forall k :: k in ks ==> k in m
  {
    if ks == [] then [] else [Header(ks[0])] + DeathRows(m[ks[0]]) + Flatten(ks[1..], m)
  }

  function HeaderYears(rows: seq<DisplayItem>): seq<string> {
    if rows == [] then []
    else (if rows[0].Header? then [rows[0].year] else []) + HeaderYears(rows[1..])
  }

  function RowDeaths(rows: seq<DisplayItem>): seq<Death> {
    if rows == [] then []
    else (if rows[0].DeathRow? then [rows[0].death] else []) + RowDeaths(rows[1..])
  }

  function YearOf(item: DisplayItem): string {
    match item
    case Header(y) => y
    case DeathRow(d) => d.year
  }

  /**
   * The list's shape: it opens with a header, every header is followed by
   * at least one death, and every death carries the year of the row above
   * it, hence the year of the nearest header above it.
   */
  predicate WellGrouped(rows: seq<DisplayItem>) {
    && (|rows| > 0 ==> rows[0].Header?)
    && (forall i :: 0 <= i < |rows| && rows[i].Header? ==> i + 1 < |rows| && rows[i + 1].DeathRow?)
    && (forall i :: 0 < i < |rows| && rows[i].DeathRow? ==> YearOf(rows[i - 1]) == rows[i].death.year)
  }

  lemma {:induction false} RowsAppend(a: seq<DisplayItem>, b: seq<DisplayItem>)
    ensures HeaderYears(a + b) == HeaderYears(a) + HeaderYears(b)
    ensures RowDeaths(a + b) == RowDeaths(a) + RowDeaths(b)
  {
    if a == [] {
      assert a + b == b;
    } else {
      assert (a + b)[1..] == a[1..] + b;
      RowsAppend(a[1..], b);
    }
  }

  lemma {:induction false} DeathRowsContent(deaths: seq<Death>)
    ensures HeaderYears(DeathRows(deaths)) == [] && RowDeaths(DeathRows(deaths)) == deaths
  {
    if deaths != [] {
      assert DeathRows(deaths)[1..] == DeathRows(deaths[1..]);
      DeathRowsContent(deaths[1..]);
    }
  }

  /** Every row is either a header or a death. */
  lemma {:induction false} RowCount(rows: seq<DisplayItem>)
    ensures |rows| == |HeaderYears(rows)| + |RowDeaths(rows)|
  {
    if rows != [] {
      RowCount(rows[1..]);
    }
  }

  /** What `Flatten` emits for the keys `ks`: their headers and, in key order, their lists. */
  function Concat(ks: seq<string>, m: map<string, seq<Death>>): seq<Death>
    requires forall k :: k in ks ==> k in m
  {
    if ks == [] then [] else m[ks[0]] + Concat(ks[1..], m)
  }

  /** One group's block of rows: its header, then its deaths. */
  lemma BlockContent(k: string, deaths: seq<Death>)
    ensures HeaderYears([Header(k)] + DeathRows(deaths)) == [k]
    ensures RowDeaths([Header(k)] + DeathRows(deaths)) == deaths
  {
    RowsAppend([Header(k)], DeathRows(deaths));
    DeathRowsContent(deaths);
    assert [Header(k)][1..] == [];
  }

  /** The headers of the flattened rows are the keys, in order. */
  lemma {:induction false} FlattenHeaders(ks: seq<string>, m: map<string, seq<Death>>)
    requires forall k :: k in ks ==> k in m
    ensures HeaderYears(Flatten(ks, m)) == ks
  {
    if ks != [] {
      FlattenHeaders(ks[1..], m);
      BlockContent(ks[0], m[ks[0]]);
      RowsAppend([Header(ks[0])] + DeathRows(m[ks[0]]), Flatten(ks[1..], m));
      assert [ks[0]] + ks[1..] == ks;
    }
  }

  /** The death rows of the flattened rows are the lists, concatenated in key order. */
  lemma {:induction false} FlattenDeaths(ks: seq<string>, m: map<string, seq<Death>>)
    requires forall k :: k in ks ==> k in m
    ensures RowDeaths(Flatten(ks, m)) == Concat(ks, m)
  {
    if ks != [] {
      FlattenDeaths(ks[1..], m);
      BlockContent(ks[0], m[ks[0]]);
      RowsAppend([Header(ks[0])] + DeathRows(m[ks[0]]), Flatten(ks[1..], m));
    }
  }

  lemma {:induction false} ConcatContents(ks: seq<string>, m: map<string, seq<Death>>)
    requires forall k :: k in ks ==> k in m
    ensures multiset(Concat(ks, m)) == Contents(ks, m)
  {
    if ks != [] {
      ConcatContents(ks[1..], m);
    }
  }

  /** Each key holds a non-empty list of deaths carrying that key as their year. */
  predicate GroupsByKey(ks: seq<string>, m: map<string, seq<Death>>) {
    forall k :: k in ks ==> k in m && m[k] != [] && forall i :: 0 <= i < |m[k]| ==> m[k][i].year == k
  }

  lemma {:induction false} FlattenWellGrouped(ks: seq<string>, m: map<string, seq<Death>>)
    requires GroupsByKey(ks, m)
    ensures WellGrouped(Flatten(ks, m))
    ensures |Flatten(ks, m)| > 0 ==> Flatten(ks, m)[0].Header?
  {
    if ks != [] {
      FlattenWellGrouped(ks[1..], m);
      var k := ks[0];
      var block := [Header(k)] + DeathRows(m[k]);
      var rest := Flatten(ks[1..], m);
      var rows := block + rest;
      assert rows == Flatten(ks, m);
      forall i | 0 <= i < |rows| && rows[i].Header? ensures i + 1 < |rows| && rows[i + 1].DeathRow? {
        if i >= |block| {
          assert rows[i] == rest[i - |block|];
          assert rows[i + 1] == rest[i + 1 - |block|];
        }
      }
      forall i | 0 < i < |rows| && rows[i].DeathRow? ensures YearOf(rows[i - 1]) == rows[i].death.year {
        if i > |block| {
          assert rows[i] == rest[i - |block|];
          assert rows[i - 1] == rest[i - 1 - |block|];
        } else if i < |block| {
          assert rows[i] == DeathRow(m[k][i - 1]);
        }
      }
    }
  }

  lemma {:induction false} ConcatWithYear(ks: seq<string>, m: map<string, seq<Death>>, y: string)
    requires GroupsByKey(ks, m) && NoDuplicates(ks)
    ensures WithYear(Concat(ks, m), y) == if y in ks then m[y] else []
  {
    if ks != [] {
      var k := ks[0];
      ConcatWithYear(ks[1..], m, y);
      WithYearAppend(m[k], Concat(ks[1..], m), y);
      WithYearAll(m[k], y);
      assert y in ks[1..] ==> y != k;
    }
  }

  lemma {:induction false} WithYearAppend(a: seq<Death>, b: seq<Death>, y: string)
    ensures WithYear(a + b, y) == WithYear(a, y) + WithYear(b, y)
    decreases |b|
  {
    if b == [] {
      assert a + b == a;
    } else {
      assert (a + b)[..|a + b| - 1] == a + b[..|b| - 1];
      WithYearAppend(a, b[..|b| - 1], y);
    }
  }

  /** A list whose deaths all carry year `k` filters to itself for `k` and to nothing otherwise. */
  lemma {:induction false} WithYearAll(ds: seq<Death>, y: string)
    requires ds != [] && forall i, j :: 0 <= i < j < |ds| ==> ds[i].year == ds[j].year
    ensures WithYear(ds, y) == if ds[0].year == y then ds else []
  {
    if |ds| > 1 {
      WithYearAll(ds[..|ds| - 1], y);
    } else {
      assert ds[..0] == [];
    }
  }

  lemma {:induction false} WithYearAbsent(ds: seq<Death>, y: string)
    requires y !in Years(ds)
    ensures WithYear(ds, y) == []
  {
    if ds != [] {
      assert Years(ds[..|ds| - 1]) == Years(ds)[..|ds| - 1];
      WithYearAbsent(ds[..|ds| - 1], y);
    }
  }

  lemma {:induction false} WithYearPresent(ds: seq<Death>, y: string)
    requires y in Years(ds)
    ensures WithYear(ds, y) != []
  {
    var init := ds[..|ds| - 1];
    if ds[|ds| - 1].year != y {
      assert Years(init) == Years(ds)[..|ds| - 1];
      assert y in Years(init);
      WithYearPresent(init, y);
    }
  }

  /** The grouped lists are non-empty and keyed by their deaths' year. */
  lemma GroupsAreKeyed(deaths: seq<Death>)
    ensures var g := GroupByYear(deaths); GroupsByKey(g.order, g.groups)
  {
    var g := GroupByYear(deaths);
    GroupByYearLists(deaths);
    GroupByYearOrder(deaths);
    forall k | k in g.order ensures g.groups[k] != [] {
      WithYearPresent(deaths, k);
    }
  }

  /** Filtering by year string can go through the numeric key first: the string determines the key. */
  lemma {:induction false} WithYearThroughKey(ds: seq<Death>, y: string)
    ensures WithYear(ds, y) == WithYear(WithKey(ds, YearKey, YearValue(y)), y)
  {
    if ds != [] {
      var init, d := ds[..|ds| - 1], ds[|ds| - 1];
      WithYearThroughKey(init, y);
      var w := WithKey(init, YearKey, YearValue(y));
      var tail := if YearKey(d) == YearValue(y) then [d] else [];
      WithYearAppend(w, tail, y);
      if tail != [] {
        assert tail[..0] == [];
      }
    }
  }

  /** Every death in the concatenated lists carries one of the keys. */
  lemma {:induction false} ConcatYears(ks: seq<string>, m: map<string, seq<Death>>)
    requires GroupsByKey(ks, m)
    ensures forall d :: d in Concat(ks, m) ==> d.year in ks
  {
    if ks != [] {
      ConcatYears(ks[1..], m);
      forall d | d in m[ks[0]] ensures d.year == ks[0] {
        var i :| 0 <= i < |m[ks[0]]| && m[ks[0]][i] == d;
      }
    }
  }

  /** The blocks of `Concat` are in non-decreasing key order, so their concatenation is sorted. */
  lemma {:induction false} ConcatSorted(ks: seq<string>, m: map<string, seq<Death>>)
    requires GroupsByKey(ks, m)
    requires forall i, j :: 0 <= i < j < |ks| ==> YearValue(ks[i]) <= YearValue(ks[j])
    ensures SortedBy(Concat(ks, m), YearKey)
  {
    if ks != [] {
      var k := ks[0];
      ConcatSorted(ks[1..], m);
      ConcatYears(ks[1..], m);
      var a, b := m[k], Concat(ks[1..], m);
      forall x, y | x in a && y in b ensures YearKey(x) <= YearKey(y) {
        var i :| 0 <= i < |a| && a[i] == x;
        var q :| 0 <= q < |ks[1..]| && ks[1..][q] == y.year;
        assert ks[q + 1] == y.year;
      }
      forall i, j | 0 <= i < j < |a| ensures YearKey(a[i]) <= YearKey(a[j]) {
        assert a[i].year == k && a[j].year == k;
      }
      SortedAppend(a, b, YearKey);
    }
  }

  /** The sorted list's distinct years, in first-appearance order, have non-decreasing numeric value. */
  lemma KeysNonDecreasing(sorted: seq<Death>)
    requires SortedBy(sorted, YearKey)
    ensures var ks := FirstAppearances(Years(sorted));
      forall i, j :: 0 <= i < j < |ks| ==> YearValue(ks[i]) <= YearValue(ks[j])
  {
    var ys := Years(sorted);
    var ks := FirstAppearances(ys);
    FirstAppearancesOrdered(ys);
    forall i, j | 0 <= i < j < |ks| ensures YearValue(ks[i]) <= YearValue(ks[j]) {
      var fi, fj := FirstIndex(ys, ks[i]), FirstIndex(ys, ks[j]);
      assert YearKey(sorted[fi]) <= YearKey(sorted[fj]);
    }
  }

  // -------------------------------------------------------------- the rows

  /** Sort, group and flatten; `None` when sorting throws. */
  function BuildRows(deaths: seq<Death>): (r: Option<seq<DisplayItem>>)
    ensures r.Some? <==> |deaths| <= 1 || YearsParse(deaths)
  {
    match SortByYear(deaths)
    case None => None
    case Some(sorted) => Some(RowsOf(sorted))
  }

  lemma NoDuplicatesCount(ys: seq<string>)
    requires NoDuplicates(ys)
    ensures |set y | y in ys| == |ys|
  {
    if ys != [] {
      var init := ys[..|ys| - 1];
      NoDuplicatesCount(init);
      assert (set y | y in ys) == (set y | y in init) + {ys[|ys| - 1]};
    }
  }

  /** Every year string of a list is a year string of any permutation of it. */
  lemma SameYears(a: seq<Death>, b: seq<Death>)
    requires multiset(a) == multiset(b)
    ensures forall y :: y in Years(a) ==> y in Years(b)
  {
    forall y | y in Years(a) ensures y in Years(b) {
      var i :| 0 <= i < |a| && Years(a)[i] == y;
      assert a[i] in multiset(b);
      var j :| 0 <= j < |b| && b[j] == a[i];
      assert Years(b)[j] == y;
    }
  }

  /** The rows built from an already sorted list. */
  function RowsOf(sorted: seq<Death>): seq<DisplayItem> {
    var g := GroupByYear(sorted);
    Flatten(g.order, g.groups)
  }

  /** Every header is followed by its year's deaths, and there is one header per distinct year string. */
  lemma RowsShape(sorted: seq<Death>)
    ensures WellGrouped(RowsOf(sorted))
    ensures HeaderYears(RowsOf(sorted)) == FirstAppearances(Years(sorted))
  {
    var g := GroupByYear(sorted);
    GroupByYearOrder(sorted);
    GroupsAreKeyed(sorted);
    FlattenHeaders(g.order, g.groups);
    FlattenWellGrouped(g.order, g.groups);
  }

  /** Every death appears in exactly one row. */
  lemma RowsContents(sorted: seq<Death>)
    ensures multiset(RowDeaths(RowsOf(sorted))) == multiset(sorted)
  {
    var g := GroupByYear(sorted);
    GroupByYearContents(sorted);
    FlattenDeaths(g.order, g.groups);
    ConcatContents(g.order, g.groups);
  }

  /** A sorted input yields death rows in the same order, and each year's deaths in input order. */
  lemma RowsOrder(sorted: seq<Death>, y: string)
    requires SortedBy(sorted, YearKey)
    ensures SortedBy(RowDeaths(RowsOf(sorted)), YearKey)
    ensures WithYear(RowDeaths(RowsOf(sorted)), y) == WithYear(sorted, y)
  {
    var g := GroupByYear(sorted);
    GroupByYearOrder(sorted);
    GroupByYearLists(sorted);
    GroupsAreKeyed(sorted);
    FlattenDeaths(g.order, g.groups);
    KeysNonDecreasing(sorted);
    ConcatSorted(g.order, g.groups);
    ConcatWithYear(g.order, g.groups, y);
    if y !in g.order {
      WithYearAbsent(sorted, y);
    }
  }

  /** Sorting leaves each year string's deaths in their API order. */
  lemma SortKeepsYearOrder(deaths: seq<Death>, y: string)
    requires SortByYear(deaths).Some?
    ensures WithYear(SortByYear(deaths).value, y) == WithYear(deaths, y)
  {
    WithYearThroughKey(SortByYear(deaths).value, y);
    WithYearThroughKey(deaths, y);
  }

  /** The distinct year strings of a list and of any permutation of it coincide and are counted alike. */
  lemma HeaderCount(sorted: seq<Death>, deaths: seq<Death>)
    requires multiset(sorted) == multiset(deaths)
    ensures forall y :: y in FirstAppearances(Years(sorted)) <==> y in Years(deaths)
    ensures |FirstAppearances(Years(sorted))| == |set y | y in Years(deaths)|
  {
    var ks := FirstAppearances(Years(sorted));
    SameYears(sorted, deaths);
    SameYears(deaths, sorted);
    NoDuplicatesCount(ks);
    assert (set y | y in ks) == (set y | y in Years(deaths));
  }

  /**
   * The list the screen shows: every header is followed by its year's
   * deaths; every input death appears exactly once; there is one header
   * per distinct year string, in the order the years first appear in the
   * sorted list; so the row count is the number of deaths plus the number
   * of distinct year strings. The deaths are in ascending numeric year, and
   * deaths sharing a year string keep their order from the API.
   */
  lemma BuildRowsCorrect(deaths: seq<Death>)
    requires BuildRows(deaths).Some?
    ensures var rows := BuildRows(deaths).value;
      && WellGrouped(rows)
      && multiset(RowDeaths(rows)) == multiset(deaths)
      && HeaderYears(rows) == FirstAppearances(Years(SortByYear(deaths).value))
      && NoDuplicates(HeaderYears(rows))
      && (forall y :: y in HeaderYears(rows) <==> y in Years(deaths))
      && |rows| == |deaths| + |set y | y in Years(deaths)|
      && SortedBy(RowDeaths(rows), YearKey)
      && (forall y :: WithYear(RowDeaths(rows), y) == WithYear(deaths, y))
  {
    var sorted := SortByYear(deaths).value;
    var rows := RowsOf(sorted);
    assert BuildRows(deaths).value == rows;
    RowsShape(sorted);
    RowsContents(sorted);
    HeaderCount(sorted, deaths);
    RowCount(rows);
    forall y ensures WithYear(RowDeaths(rows), y) == WithYear(deaths, y) {
      RowsOrder(sorted, y);
      SortKeepsYearOrder(deaths, y);
    }
    RowsOrder(sorted, "");
  }

  // ------------------------------------------------------------ the screen

  /**
   * The history call's result: a transport failure, or a status and maybe a
   * body; `deaths` is `None` when the body's `data` or its `deaths` list is null.
   */
  datatype HistoryExchange =
    | HistoryFailure(message: Option<string>)
    | HistoryResponse(code: int, body: Option<HistoryBody>)

  datatype HistoryBody = HistoryBody(deaths: Option<seq<Death>>)

  /** What `onResponse`/`onFailure` leave on screen. */
  datatype ListScreen = ShowRows(rows: seq<DisplayItem>) | ShowToast(message: string) | Crashed

  const FETCH_FAILED: string := "Failed to fetch data"

  /**
   * A successful response with a body shows the built rows, or crashes when
   * the body holds no list or a year does not parse; any other response
   * toasts and builds no rows; a transport failure toasts its message.
   */
  function OnHistoryResult(x: HistoryExchange): (r: ListScreen)
    ensures r.ShowRows? <==>
      && x.HistoryResponse? && IsSuccessful(x.code) && x.body.Some? && x.body.value.deaths.Some?
      && BuildRows(x.body.value.deaths.value).Some?
    ensures r.ShowRows? ==> r.rows == BuildRows(x.body.value.deaths.value).value
    ensures x.HistoryResponse? && (!IsSuccessful(x.code) || x.body.None?) ==> r == ShowToast(FETCH_FAILED)
    ensures x.HistoryFailure? ==> r == ShowToast("Error: " + Show(x.message))
    ensures r.Crashed? <==>
      && x.HistoryResponse? && IsSuccessful(x.code) && x.body.Some?
      && (x.body.value.deaths.None? || BuildRows(x.body.value.deaths.value).None?)
  {
    match x
    case HistoryFailure(m) => ShowToast("Error: " + Show(m))
    case HistoryResponse(code, body) =>
      if !IsSuccessful(code) || body.None? then ShowToast(FETCH_FAILED)
      else if body.value.deaths.None? then Crashed
      else
        match BuildRows(body.value.deaths.value)
        case Some(rows) => ShowRows(rows)
        case None => Crashed
  }

  /**
   * Among two or more deaths, one whose year holds no digit at all (a year
   * written in words, say) makes the comparator throw, so the list screen
   * crashes instead of showing any row.
   */
  lemma WordYearCrashesList(code: int, deaths: seq<Death>, i: nat)
    requires IsSuccessful(code) && |deaths| >= 2 && i < |deaths|
    requires forall k :: 0 <= k < |deaths[i].year| ==> !IsDigit(deaths[i].year[k])
    ensures OnHistoryResult(HistoryResponse(code, Some(HistoryBody(Some(deaths))))) == Crashed
  {
    ParseIntNeedsADigit(deaths[i].year);
  }

  /**
   * The same for a year with any char other than a digit after its optional
   * sign, such as "44 BC": two or more deaths and the list screen crashes.
   */
  lemma StrayCharYearCrashesList(code: int, deaths: seq<Death>, i: nat, k: nat)
    requires IsSuccessful(code) && |deaths| >= 2 && i < |deaths|
    requires k < |deaths[i].year| && !IsDigit(deaths[i].year[k]) && (k > 0 || !IsSign(deaths[i].year[k]))
    ensures OnHistoryResult(HistoryResponse(code, Some(HistoryBody(Some(deaths))))) == Crashed
  {
    StrayCharRejected(deaths[i].year, k);
  }

  /** `onItemClick`: the detail screen is started with the death's text and year, unchanged. */
  function OnItemClick(d: Death): (extras: Extras)
    ensures GetStringExtra(extras, PERSON_TEXT) == Some(d.text)
    ensures GetStringExtra(extras, PERSON_YEAR) == Some(d.year)
    ensures extras.Keys == {PERSON_TEXT, PERSON_YEAR}
  {
    map[PERSON_TEXT := d.text, PERSON_YEAR := d.year]
  }
}

=== FILE: stable_sort.dfy ===
/**
 * A stable sort by an integer key, the contract `Collections.sort` keeps:
 * the result is ordered by key, and elements with equal keys keep their
 * input order. Insertion from the back gives the same unique answer as
 * Java's merge sort.
 */
module StableSort {

  predicate SortedBy<T>(xs: seq<T>, key: T -> int) {
    forall i, j :: 0 <= i < j < |xs| ==> key(xs[i]) <= key(xs[j])
  }

  /** The elements whose key is `k`, in their order in `xs`. */
  function WithKey<T>(xs: seq<T>, key: T -> int, k: int): seq<T> {
    if xs == [] then []
    else WithKey(xs[..|xs| - 1], key, k) + (if key(xs[|xs| - 1]) == k then [xs[|xs| - 1]] else [])
  }

  lemma {:induction false} WithKeyAppend<T>(a: seq<T>, b: seq<T>, key: T -> int, k: int)
    ensures WithKey(a + b, key, k) == WithKey(a, key, k) + WithKey(b, key, k)
    decreases |b|
  {
    if b == [] {
      assert a + b == a;
    } else {
      var b' := b[..|b| - 1];
      assert (a + b)[..|a + b| - 1] == a + b';
      WithKeyAppend(a, b', key, k);
    }
  }

  /** Puts `x` after every element whose key is at most `key(x)`. */
  function Insert<T>(xs: seq<T>, x: T, key: T -> int): seq<T>
    decreases |xs|
  {
    if xs == [] || key(xs[|xs| - 1]) <= key(x) then xs + [x]
    else Insert(xs[..|xs| - 1], x, key) + [xs[|xs| - 1]]
  }

  function Sort<T>(xs: seq<T>, key: T -> int): seq<T>
    decreases |xs|
  {
    if xs == [] then [] else Insert(Sort(xs[..|xs| - 1], key), xs[|xs| - 1], key)
  }

  lemma {:induction false} InsertPermutes<T>(xs: seq<T>, x: T, key: T -> int)
    ensures multiset(Insert(xs, x, key)) == multiset(xs) + multiset{x}
    decreases |xs|
  {
    if !(xs == [] || key(xs[|xs| - 1]) <= key(x)) {
      var init := xs[..|xs| - 1];
      InsertPermutes(init, x, key);
      assert xs == init + [xs[|xs| - 1]];
    }
  }

  lemma {:induction false} InsertSorted<T>(xs: seq<T>, x: T, key: T -> int)
    requires SortedBy(xs, key)
    ensures SortedBy(Insert(xs, x, key), key)
    decreases |xs|
  {
    if !(xs == [] || key(xs[|xs| - 1]) <= key(x)) {
      var init, y := xs[..|xs| - 1], xs[|xs| - 1];
      InsertSorted(init, x, key);
      var r' := Insert(init, x, key);
      InsertPermutes(init, x, key);
      forall i | 0 <= i < |r'| ensures key(r'[i]) <= key(y) {
        assert r'[i] in multiset(r');
        if r'[i] != x {
          assert r'[i] in multiset(init);
          var j :| 0 <= j < |init| && init[j] == r'[i];
          assert init[j] == xs[j];
        }
      }
    }
  }

  lemma {:induction false} InsertStable<T>(xs: seq<T>, x: T, key: T -> int, k: int)
    requires SortedBy(xs, key)
    ensures WithKey(Insert(xs, x, key), key, k) == WithKey(xs, key, k) + (if key(x) == k then [x] else [])
    decreases |xs|
  {
    if xs == [] || key(xs[|xs| - 1]) <= key(x) {
      var r := xs + [x];
      assert r[..|r| - 1] == xs;
    } else {
      var init, y := xs[..|xs| - 1], xs[|xs| - 1];
      InsertStable(init, x, key, k);
      var r := Insert(init, x, key) + [y];
      assert r[..|r| - 1] == Insert(init, x, key);
      assert xs[..|xs| - 1] == init;
    }
  }

  /**
   * `Sort` is a stable sort: ordered by key, a permutation of its input,
   * and for every key the elements carrying it appear in input order.
   */
  lemma {:induction false} SortCorrect<T>(xs: seq<T>, key: T -> int)
    ensures SortedBy(Sort(xs, key), key)
    ensures multiset(Sort(xs, key)) == multiset(xs)
    ensures forall k :: WithKey(Sort(xs, key), key, k) == WithKey(xs, key, k)
    decreases |xs|
  {
    if xs != [] {
      var init, x := xs[..|xs| - 1], xs[|xs| - 1];
      SortCorrect(init, key);
      InsertSorted(Sort(init, key), x, key);
      InsertPermutes(Sort(init, key), x, key);
      assert xs == init + [x];
      forall k ensures WithKey(Sort(xs, key), key, k) == WithKey(xs, key, k) {
        InsertStable(Sort(init, key), x, key, k);
      }
    }
  }

  lemma {:induction false} WithKeyMembers<T>(xs: seq<T>, key: T -> int, k: int)
    ensures forall z :: z in WithKey(xs, key, k) ==> z in xs && key(z) == k
  {
    if xs != [] {
      WithKeyMembers(xs[..|xs| - 1], key, k);
    }
  }

  /** In a sorted list every element's key is at most the last element's. */
  lemma SortedLastIsMax<T>(xs: seq<T>, key: T -> int, z: T)
    requires SortedBy(xs, key) && z in xs
    ensures key(z) <= key(xs[|xs| - 1])
  {
    var i :| 0 <= i < |xs| && xs[i] == z;
  }

  /** Dropping the last element drops the last entry of its key's subsequence and nothing else. */
  lemma DropLastWithKey<T>(xs: seq<T>, key: T -> int, k: int)
    requires xs != []
    ensures var w := WithKey(xs, key, k);
      WithKey(xs[..|xs| - 1], key, k) == if k == key(xs[|xs| - 1]) then w[..|w| - 1] else w
  {
    var w' := WithKey(xs[..|xs| - 1], key, k);
    if k != key(xs[|xs| - 1]) {
      assert w' + [] == w';
    } else {
      assert (w' + [xs[|xs| - 1]])[..|w'|] == w';
    }
  }

  /** The last element of a non-empty list is the last of its key's subsequence. */
  lemma LastOfItsKey<T>(xs: seq<T>, key: T -> int)
    ensures xs != [] ==> var w := WithKey(xs, key, key(xs[|xs| - 1]));
      w != [] && w[|w| - 1] == xs[|xs| - 1]
  {
  }

  /** The last key of a list is at most the last key of a sorted list holding the same elements of that key. */
  lemma LastKeyBound<T>(a: seq<T>, b: seq<T>, key: T -> int)
    requires a != [] && b != [] && SortedBy(b, key)
    requires WithKey(a, key, key(a[|a| - 1])) == WithKey(b, key, key(a[|a| - 1]))
    ensures key(a[|a| - 1]) <= key(b[|b| - 1])
  {
    var x := a[|a| - 1];
    LastOfItsKey(a, key);
    WithKeyMembers(b, key, key(x));
    var w := WithKey(b, key, key(x));
    assert w[|w| - 1] in w;
    SortedLastIsMax(b, key, x);
  }

  /** Two sorted lists with the same per-key subsequences end with the same element. */
  lemma SameLast<T>(a: seq<T>, b: seq<T>, key: T -> int)
    requires a != [] && b != [] && SortedBy(a, key) && SortedBy(b, key)
    requires forall k :: WithKey(a, key, k) == WithKey(b, key, k)
    ensures a[|a| - 1] == b[|b| - 1]
  {
    LastKeyBound(a, b, key);
    LastKeyBound(b, a, key);
    LastOfItsKey(a, key);
    LastOfItsKey(b, key);
  }

  /**
   * A sorted list is determined by its per-key subsequences: any two sorted
   * arrangements that keep every key's elements in the same order are
   * equal. So every stable sort, Java's merge sort included, returns `Sort`.
   */
  lemma {:induction false} StableSortUnique<T>(a: seq<T>, b: seq<T>, key: T -> int)
    requires SortedBy(a, key) && SortedBy(b, key)
    requires forall k :: WithKey(a, key, k) == WithKey(b, key, k)
    ensures a == b
    decreases |a|
  {
    LastOfItsKey(a, key);
    LastOfItsKey(b, key);
    if a != [] && b != [] {
      SameLast(a, b, key);
      var a', b' := a[..|a| - 1], b[..|b| - 1];
      forall k ensures WithKey(a', key, k) == WithKey(b', key, k) {
        DropLastWithKey(a, key, k);
        DropLastWithKey(b, key, k);
      }
      StableSortUnique(a', b', key);
      assert a == a' + [a[|a| - 1]] && b == b' + [b[|b| - 1]];
    }
  }

  /** Two sorted lists, every key of the first at most every key of the second, concatenate to a sorted list. */
  lemma SortedAppend<T>(a: seq<T>, b: seq<T>, key: T -> int)
    requires SortedBy(a, key) && SortedBy(b, key)
    requires forall x, y :: x in a && y in b ==> key(x) <= key(y)
    ensures SortedBy(a + b, key)
  {
    var c := a + b;
    forall i, j | 0 <= i < j < |c| ensures key(c[i]) <= key(c[j]) {
      if j < |a| {
        assert c[i] == a[i] && c[j] == a[j];
      } else if i >= |a| {
        assert c[i] == b[i - |a|] && c[j] == b[j - |a|];
      } else {
        assert c[i] == a[i] && c[j] == b[j - |a|];
      }
    }
  }
}

=== FILE: wrappers.dfy ===
/** A Java reference that may be null, as an explicit option. */
module Wrappers {

  datatype Option<+T> = None | Some(value: T) {

    /** The value, or `default` when there is none. */
    function GetOr(default: T): T {
      match this
      case Some(v) => v
      case None => default
    }
  }
}
